=== FILE: README.md ===
# shimmer-listener stream engine in Dafny

shimmer-listener receives data from Shimmer2 motes over Bluetooth. This model
covers its deterministic core:

- **Presentation frame.** A slave mote first sends a 112-byte frame with the
  layout `"BB10s100s"`, which `_init_frameinfo` decodes into a `frameinfo`
  descriptor: frame size, chunk length, struct format and up to ten key names.
- **Data frames.** Each data frame is cut into `lenchunks`-byte chunks. Every
  chunk is unpacked with the announced format, and `_to_dict` turns it into a
  dictionary that is handed to `process`.
- **Master frames.** A master mote sends fixed 22-byte frames. Six
  little-endian 16-bit words are read from them at offsets 7 to 17.
- **Receive loops.** The loops call `recv` until `n` bytes have arrived. They
  are folds over a sequence of events: a received block, a `BluetoothError`,
  or a `stop` call from another thread.
- **Stream registry.** This is `_open_conn`, together with each stream's
  `_running` flag (the `open` property), `stop` and `close_streams`.
- **`bt_init` / `bt_listen` / `bt_close`.** These share the `_op_mode` state
  machine and dispatch on `BtMode.index`.
- **The pure parts of the master side.** These are the `_apps` table, the
  `_master_init` check, the `"RN42"` name filter, the candidate selection of
  the discovery loop and `_master_close`.

Modules, in dependency order:

| file | module | what it holds |
|---|---|---|
| results.dfy | `Results` | `Option`, `Result` |
| bytes.dfy | `Bytes` | bytes, little-endian integers, ASCII text, `rstrip("\x00")`, block concatenation |
| struct_codec.dfy | `StructCodec` | the formats `b B h H i I`: parse, `calcsize`, `unpack`, and the matching `pack` |
| frame_codec.dfy | `FrameCodec` | `frameinfo`, the presentation-frame decoder and the encoder a mote uses |
| data_frames.dfy | `DataFrames` | `_to_dict`, the chunk loop, the 22-byte master frame |
| receive.dfy | `Receive` | the accumulate-until-`n` receive loop |
| registry.dfy | `Registry` | `_open_conn`, `open`, `stop`, `close_streams` as written, and a corrected `close_streams` |
| stream_run.dfy | `StreamRun` | `BtSlaveInputStream.run` and `BtMasterInputStream.run` |
| run_properties.dfy | `RunProperties` | what the two `run` methods deliver and leave behind |
| master.dfy | `Master` | `_apps`, `_master_init`, `_is_shimmer_device`, `_master_listen`'s cycles, `_master_close` |
| session.dfy | `Session` | `BtMode`, the dispatch tables, `bt_init`, `bt_listen`, `bt_close` |
| test_vectors.dfy | `TestVectors` | the frames of the SimpleAccel mock in the unit tests, and what the engine makes of them |

Modelling choices:

- Bytes are integers in 0..255 and text is `seq<char>`.
- `struct` runs in native mode: every field is aligned to its own size and
  stored little-endian.
- Each `run` method is a pure function. It takes the registry, the stream's
  id and the events its thread sees. It returns:
  - the registry afterwards;
  - the records handed to `process`, in order;
  - how the method ended: `Closed` when it returned and closed the socket,
    `Raised` when an exception escaped, and `Pending` when it was still
    waiting for input.
- `Registry.Stop` takes the test of `_running` and the removal from
  `_open_conn` as one step. In the code only the removal is under the mutex.
  `Registry.Unlist` models the removal on its own, and
  `Registry.OverlappingStopsRaise` shows what two overlapping `stop` calls do.
- Three consequences of the code as written:
  - **Validation.** The code never checks the descriptor, so a zero chunk
    length, a format whose size differs from the chunk length, or more keys
    than fields surface as uncaught exceptions inside the data loop.
    When `lenchunks` does not divide `framesize`, the last chunk's slice
    runs past `framesize` into whatever surplus the last `recv` returned,
    so whether that chunk unpacks depends on how the bytes were split.
  - **Empty key slots.** A key slot is dropped only when it is entirely NUL
    bytes, not merely when its first byte is NUL.
  - **Header length.** The presentation frame is decoded from the whole
    buffer that was received. A header whose last `recv` takes the buffer
    past 112 bytes therefore raises `struct.error`.

## Model

| member | source | states |
|---|---|---|
| Bytes.RStripNul | shimmer_listener/_streams.py:155 | `rstrip("\x00")` keeps a prefix that does not end in NUL and removes only NUL characters after it |
| Bytes.RStripNulPadded | shimmer_listener/_streams.py:163 | stripping a NUL-padded text whose last character is not NUL gives back the text |
| Bytes.LeUnsignedOfLeBytes | shimmer_listener/_streams.py:113 | writing a value as `n` little-endian bytes and reading them back gives the value |
| StructCodec.ParseFormat | shimmer_listener/_streams.py:189 | a format is understood exactly when every character is one of `b B h H i I`; otherwise the error names the first bad position |
| StructCodec.ParseFormatOf | shimmer_listener/_streams.py:189 | the format spelled from a list of codes parses back to that list |
| StructCodec.AlignUpLeast | shimmer_listener/_streams.py:189 | in native mode a field starts at the first offset, at or after the previous field's end, that is a multiple of its size |
| StructCodec.Unpack | shimmer_listener/_streams.py:189 | `struct.unpack` succeeds exactly when the format is understood and the buffer is `calcsize` bytes long, and then gives one value per field |
| StructCodec.UnpackInRange | shimmer_listener/_streams.py:189 | every unpacked value lies in the range of its field type |
| StructCodec.UnpackPack | shimmer_listener/_streams.py:189 | unpacking what was packed with the same format gives back the values |
| FrameCodec.DecodeHeader | shimmer_listener/_streams.py:151-165 | `_init_frameinfo` succeeds exactly on 112 bytes whose text fields are ASCII; any other length is `struct.error`; the sizes are bytes 0 and 1; the result has at most ten keys of 1 to 10 characters and a format of at most 10 characters without trailing NUL |
| FrameCodec.DecodeHeaderFormat | shimmer_listener/_streams.py:155 | the format is the text of bytes 2..11 up to the NUL padding that ends them |
| FrameCodec.DecodeHeaderKeys | shimmer_listener/_streams.py:157-164 | the keys are the ten 10-byte slots of bytes 12..111, stripped of trailing NULs, in slot order, with the empty ones dropped and repeats kept; a string is a key exactly when some slot holds it and it is not empty |
| FrameCodec.NonEmpty | shimmer_listener/_streams.py:164 | the comprehension keeps exactly the strings that are not empty; a single string is kept exactly when it is not empty |
| FrameCodec.NonEmptyAppend | shimmer_listener/_streams.py:164 | filtering two runs of slots one after the other gives the filtered first run followed by the filtered second, so order and repeats are kept |
| FrameCodec.DecodeEncodeHeader | shimmer_listener/_streams.py:151-165 | every descriptor a presentation frame can carry is decoded back from the frame a mote sends for it |
| DataFrames.ToDict | shimmer_listener/_streams.py:145-149 | `_to_dict` fails with IndexError exactly when there are more keys than values; otherwise its keys are exactly the descriptor's keys |
| DataFrames.AssignLastWins | shimmer_listener/_streams.py:147-148 | a key is bound to the value at its last position, since later assignments overwrite earlier ones |
| DataFrames.ToDictZips | shimmer_listener/_streams.py:145-149 | with distinct keys, key `i` is bound to value `i` and surplus values are dropped |
| DataFrames.RangeFrom | shimmer_listener/_streams.py:188 | `range(lo, hi, step)` starts at `lo`, stays below `hi` and stops within one step of it |
| DataFrames.RangeAt | shimmer_listener/_streams.py:188 | the `i`-th offset of the chunk loop is `i * lenchunks` |
| DataFrames.ChunkCount | shimmer_listener/_streams.py:188 | when `lenchunks` divides `framesize`, the chunk loop visits exactly `framesize / lenchunks` offsets |
| DataFrames.ChunkRecord | shimmer_listener/_streams.py:189-190 | a chunk yields a record exactly when it unpacks and the format has at least as many fields as there are keys; the record holds exactly the keys, and an unpack failure is reported as that `struct.error` |
| DataFrames.DecodeFrame | shimmer_listener/_streams.py:188-190 | a zero chunk length raises before any record; otherwise there is at most one record per offset, and exactly one when nothing fails |
| DataFrames.DecodeFrameSpec | shimmer_listener/_streams.py:188-190 | record `k` is the dictionary of the chunk at offset `k`, in order, and a failure is the exception of the first chunk that did not become a record |
| DataFrames.WellFormedFrame | shimmer_listener/_streams.py:188-190 | under a consistent descriptor every frame yields exactly `framesize / lenchunks` records and no exception |
| DataFrames.DecodeChunksCut | shimmer_listener/_streams.py:188-189 | bytes past a cut reach no chunk that ends by the cut, so the records and the fault are the same with or without them |
| DataFrames.DividingChunksIgnoreSurplus | shimmer_listener/_streams.py:184-189 | when `lenchunks` divides `framesize`, surplus bytes from the last `recv` change nothing: the frame decodes as its first `framesize` bytes do |
| DataFrames.NonDividingChunkReadsSurplus | shimmer_listener/_streams.py:184-189 | with `frameinfo(10, 4, "hh", ...)` the chunk at offset 8 unpacks when the last `recv` brought twelve bytes and raises `struct.error` when it brought exactly ten |
| DataFrames.RecordsCarryKeys | shimmer_listener/_streams.py:188-190 | every record handed to `process` has exactly the descriptor's keys |
| DataFrames.DecodeEncodeFrame | shimmer_listener/_streams.py:182-190 | a frame packed from samples with the descriptor's own format is decoded back to one record per sample, in order |
| DataFrames.RepeatedSampleFrame | shimmer_listener/_streams.py:188-190 | a frame that repeats one sample is delivered as that many copies of one record |
| DataFrames.MasterTailLayout | shimmer_listener/_streams.py:113 | `struct.unpack("HHHHHHHB", ...)` of 15 bytes succeeds, and its first six values are the little-endian words at offsets 0, 2, ..., 10 |
| DataFrames.DecodeMasterFrameUnpacks | shimmer_listener/_streams.py:112-114 | the six sensor values of a master record are the first six values of that unpack of bytes 7..21, tagged with the mote's address |
| DataFrames.DecodeEncodeMasterFrame | shimmer_listener/_streams.py:112-114 | the six words are recovered whatever the ignored bytes 0..6 and 19..21 hold |
| Receive.AccFrom | shimmer_listener/_streams.py:183-187 | the loop's buffer is the initial bytes followed by every received block in order; it ends full, on a `BluetoothError` as its last event, or when the input runs out |
| Receive.Accumulate | shimmer_listener/_streams.py:103-107 | from an empty buffer: the buffer is the received blocks in order, it is full exactly when it holds at least `n` bytes, and it records whether a `stop` call fell inside the loop |
| Receive.AccumulateMinimal | shimmer_listener/_streams.py:172-174 | the loop stops at the first moment it holds `n` bytes, and a `BluetoothError` can only be the last event it consumes |
| Receive.AccumulateUnique | shimmer_listener/_streams.py:183-187 | the receive loop's contract determines its result completely |
| Receive.AccumulateOneBlock | shimmer_listener/_streams.py:105-107 | a first block of at least `n` bytes fills the buffer in one `recv` and any surplus stays in it |
| Receive.AccumulateLinkDown | shimmer_listener/_streams.py:116-117 | a `BluetoothError` before any byte ends the loop with nothing gathered |
| Receive.AccumulateSplit | shimmer_listener/_streams.py:57-66 | a `stop` call in the middle of a frame does not interrupt gathering it |
| Receive.LeadingStops | shimmer_listener/_streams.py:182 | the `stop` calls taken into account at a test of `_running` are exactly the run of them at the head of the input |
| Registry.InitialValid | shimmer_listener/_streams.py:74 | the empty registry satisfies the invariant |
| Registry.Register | shimmer_listener/_streams.py:34-47 | construction appends a new stream to `_open_conn`, and the stream is not open |
| Registry.Start | shimmer_listener/_streams.py:168 | `run` sets `_running`, and only that stream changes |
| Registry.RemoveFirst | shimmer_listener/_streams.py:66 | `list.remove` fails exactly when the element is absent, and otherwise drops its first occurrence |
| Registry.Stop | shimmer_listener/_streams.py:57-66 | `stop` on a stream that is not running changes nothing; on a running one it clears the flag and removes the stream from `_open_conn`, touching no other stream |
| Registry.StopValid | shimmer_listener/_streams.py:63-66 | under the invariant `stop` never raises, removes the stream exactly once and leaves every other list entry in place |
| Registry.StopIdempotent | shimmer_listener/_streams.py:63-66 | a second `stop` changes nothing |
| Registry.Unlist | shimmer_listener/_streams.py:65-66 | `_open_conn.remove` under the mutex raises exactly when the stream is no longer listed, and otherwise drops its first entry and nothing else |
| Registry.StopInTwoSteps | shimmer_listener/_streams.py:63-66 | when `stop` calls do not overlap, clearing `_running` and then removing the stream is exactly `Registry.Stop` |
| Registry.OverlappingStopsRaise | shimmer_listener/_streams.py:63-66 | two `stop` calls that both read `_running` before either clears it both try the removal, and the second raises ValueError |
| Registry.ClearRunning | shimmer_listener/_streams.py:178-180 | the handler of a bad presentation frame clears `_running` and leaves `_open_conn` alone |
| Registry.ClearedStreamStaysListed | shimmer_listener/_streams.py:178-180 | after a bad presentation frame the stream stays in `_open_conn`, and a later `stop` cannot remove it |
| Registry.Lifecycle | shimmer_listener/_streams.py:43-66 | a new stream is listed and closed; running it opens it; stopping it closes it and restores `_open_conn` to what it was before |
| Registry.CloseFromSweeps | shimmer_listener/_streams.py:23-26 | `close_streams` as written stops exactly the streams of the skip-after-each-stop reference |
| Registry.CloseStreamsSkipsSecond | shimmer_listener/_streams.py:23-26 | with two open streams, `close_streams` as written leaves the second one open |
| Registry.StopEach | shimmer_listener/_streams.py:23-26 | stopping the streams of a fixed list closes each of them and keeps the streams that were not open unchanged |
| Registry.CloseStreamsSnapshotStopsAll | shimmer_listener/_streams.py:23-26 | `close_streams` over a snapshot of the list stops every stream and leaves in `_open_conn` only streams that were not open |
| StreamRun.StopIf | shimmer_listener/_streams.py:57-66 | the `stop` calls that fall inside a loop close the stream and change nothing else |
| StreamRun.RunSlave | shimmer_listener/_streams.py:167-192 | `BtSlaveInputStream.run` changes only its own stream, and when it returns the stream is not open |
| StreamRun.SlaveLoop | shimmer_listener/_streams.py:182-192 | the data loop changes only its own stream, and when it returns the stream is not open |
| StreamRun.RunMaster | shimmer_listener/_streams.py:99-119 | `BtMasterInputStream.run` changes only its own stream |
| RunProperties.OversizedHeaderLeavesStreamListed | shimmer_listener/_streams.py:172-180 | whenever the header loop's last `recv` takes the buffer past 112 bytes, the `struct.error` is caught: nothing reaches `process`, the stream is closed, it stays in `_open_conn` exactly when no `stop` call fell inside the loop, and a later `stop` cannot remove it |
| RunProperties.SplitHeaderOvershoot | shimmer_listener/_streams.py:172-180 | a header received in two `recv(112)` calls that each return at most 112 bytes but together exceed 112 is caught the same way, and the stream stays in `_open_conn` |
| RunProperties.SlaveHeader | shimmer_listener/_streams.py:172-176 | a presentation frame received in one `recv` starts the data loop with the descriptor it encodes |
| RunProperties.SlaveWholeFrames | shimmer_listener/_streams.py:167-192 | after the presentation frame, whole data frames are delivered in order with `framesize / lenchunks` records each; a `stop` afterwards closes the stream and removes it from `_open_conn`, and without one the stream stays open and listed |
| RunProperties.OneFrameThenStop | shimmer_listener/_streams.py:182-192 | a presentation frame, one data frame and a `stop`: the frame's records are delivered and the stream closes and leaves `_open_conn` |
| RunProperties.AccumulateBlocks | shimmer_listener/_streams.py:183-187 | a frame that arrives over several `recv` calls is gathered whole, consuming exactly those calls |
| RunProperties.BlocksThenStop | shimmer_listener/_streams.py:182-192 | a data frame received in several blocks is delivered whole before a later `stop` closes the stream |
| RunProperties.BlocksThenStopFrameOnly | shimmer_listener/_streams.py:182-190 | with a dividing chunk length, the records a split frame delivers are those of its first `framesize` bytes, whatever the blocks brought beyond them |
| RunProperties.StopMidFrame | shimmer_listener/_streams.py:57-66 | a `stop` during a data frame does not interrupt it: the frame is delivered, then the loop ends |
| RunProperties.ZeroChunkLengthRaises | shimmer_listener/_streams.py:188 | a zero chunk length makes `range` raise once the first frame is in: nothing is delivered and the stream stays open |
| RunProperties.MasterLinkDownStaysOpen | shimmer_listener/_streams.py:116-119 | a `BluetoothError` ends the master loop and closes the socket, but `_running` stays set, so the stream stays open and listed |
| RunProperties.MasterLoopFrames | shimmer_listener/_streams.py:101-115 | master frames, one per `recv`, each yield one record from their first 22 bytes, and anything beyond those bytes is dropped |
| RunProperties.MasterFrames | shimmer_listener/_streams.py:99-119 | each master record carries the mote's address and the six words at offsets 7, 9, 11, 13, 15 and 17 of its frame |
| Master.MasterInit | shimmer_listener/_master.py:37-41 | `_master_init` accepts exactly a name present in `_apps` and records it; otherwise it raises and changes nothing |
| Master.MasterInitAccepts | shimmer_listener/_master.py:32-41 | only `"simple_accel"` is accepted, and `None` is rejected |
| Master.MasterInitDescriptor | shimmer_listener/_master.py:32-41 | after a successful `_master_init`, `_apps[_current_app]` is the built-in descriptor, which is consistent |
| Master.SimpleAccelWellFormed | shimmer_listener/_master.py:32-34 | the built-in descriptor is consistent: 120 is a multiple of 8, `"hhhh"` packs into 8 bytes, and there is one key per field |
| Master.SimpleAccelChunks | shimmer_listener/_master.py:33 | each frame of the built-in application carries 15 chunks |
| Master.SimpleAccelRepresentable | shimmer_listener/_master.py:33 | the built-in descriptor fits in a presentation frame |
| Master.IsShimmerDevice | shimmer_listener/_master.py:68-69 | a device is a Shimmer exactly when its name starts with `"RN42"` |
| Master.ShimmerNames | shimmer_listener/_master.py:68-69 | the filter is case-sensitive and anchored at the start of the name |
| Master.CandidatesMembers | shimmer_listener/_master.py:49-52 | a scan tries exactly the found devices whose names pass the filter |
| Master.CandidatesAppend | shimmer_listener/_master.py:48-52 | the filter keeps scan order |
| Master.CandidatesAllOrNone | shimmer_listener/_master.py:49-52 | a scan in which every device passes is tried whole, and one in which none passes tries nothing |
| Master.MasterClose | shimmer_listener/_master.py:63-65 | `_master_close` clears `_discovering` and keeps the current application |
| Master.MasterListen | shimmer_listener/_master.py:44-60 | the loop does nothing once `_discovering` is false, tries only devices that pass the filter, and keeps the current application |
| Master.CloseFinishesCycle | shimmer_listener/_master.py:46-60 | a close during a cycle lets that cycle finish its attempts, and then the loop ends |
| Master.ListenAllCycles | shimmer_listener/_master.py:44-60 | without a close, the loop runs every cycle and tries exactly the candidates of all of them, in order |
| Session.Index | shimmer_listener/__init__.py:24-33 | `BtMode.index` is 0 or 1 |
| Session.IndexInjective | shimmer_listener/__init__.py:24-33 | distinct modes have distinct indices |
| Session.BtInit | shimmer_listener/__init__.py:39-52 | `bt_init` raises exactly when a mode is already set; otherwise it records the mode and, for the slave mode only, opens the listening socket |
| Session.BtListen | shimmer_listener/__init__.py:55-64 | `bt_listen` raises exactly when no mode is set; in master mode it runs `_master_listen` over the discovery cycles and keeps the loop's final state, and in slave mode the master state is untouched |
| Session.MasterSessionListens | shimmer_listener/__init__.py:39-64 | after `bt_init(MASTER)`, `bt_listen` without a close runs every cycle and tries exactly the shimmer candidates found, in order |
| Session.ListenAfterCloseIdle | shimmer_listener/__init__.py:55-76 | in master mode, `bt_listen` after `bt_close` runs no cycle and tries no device |
| Session.RoleCloseStep | shimmer_listener/__init__.py:21 | the master close clears the discovery flag; the slave close closes the listening socket; the mode and the streams are untouched |
| Session.BtClose | shimmer_listener/__init__.py:67-76 | `bt_close` raises exactly when no mode is set; otherwise it runs the role's close and then `close_streams`, and keeps the mode |
| Session.DispatchByMode | shimmer_listener/__init__.py:20-21 | index 0 selects the master's listen and close, and index 1 the slave's |
| Session.BtCloseByMode | shimmer_listener/__init__.py:67-76 | `bt_close` in master mode stops discovery, and in slave mode it closes the listening socket |
| Session.InitOnlyOnce | shimmer_listener/__init__.py:46-49 | after a successful `bt_init`, and even after `bt_close`, a second `bt_init` raises |
| Session.UninitializedCallsFail | shimmer_listener/__init__.py:55-76 | before `bt_init`, `bt_listen` and `bt_close` raise |
| TestVectors.AccelHeaderDecodes | tests/test_streams.py:8-11 | the test's presentation frame encodes, and decodes to, (120, 8, "hhhh", [accel_x, accel_y, accel_z, batt]) |
| TestVectors.AccelChunkRecord | tests/test_streams.py:13-14 | the values of the test's chunk, zipped with the keys, give the dictionary the test expects |
| TestVectors.AccelFrameDecodes | tests/test_streams.py:13-14 | fifteen copies of the test's chunk decode to fifteen copies of the expected dictionary |
| TestVectors.AccelStreamRun | tests/test_streams.py:8-14 | the presentation frame, one whole data frame and a `stop`: fifteen expected dictionaries, then the stream closes and leaves `_open_conn` |
| TestVectors.AccelMockStream | tests/test_streams.py:17-24 | with the mock socket answering each data `recv` with one 8-byte chunk, fifteen answers make the frame and the same fifteen dictionaries are delivered |

## Left out

- Receive.Accumulate: a `Recv` block is not bounded by the size `recv(n)` asked for, although a real socket returns at most `n` bytes. Every result still holds for the bounded inputs, and `RunProperties.SplitHeaderOvershoot` states the header overshoot for blocks within the bound.
- Registry.Stop: takes the test of `_running` and the removal as one atomic step, which matches the code whenever `stop` calls do not overlap. The race between the unlocked test and the locked removal is stated separately, by `Registry.OverlappingStopsRaise`, and is not threaded through the stream runs or `close_streams`.
- Threads, sockets, `logging`, `time.sleep` and the registry mutex. Events from the transport and from other threads form one ordered input sequence. `process` is modelled by the list of records it receives, and the socket's `close` by the `Closed` outcome.
- shimmer_listener/_slave.py is not part of this model: its socket bind, listen, `advertise_service` and accept loop are transport I/O. `bt_init` in slave mode is reduced to marking the listening socket as created, and `_slave_close` to marking it closed.
- `_master_listen` discovery and connection: `discover_devices`, `connect`, `BluetoothError` on connect and the stray `bluetooth.BluetoothSocket()` call are I/O. Each cycle is given as the devices it found.
- Master.MasterListen: models connection attempts as the candidate list only. The thread spawned at shimmer_listener/_master.py:57 passes `app_info`, which the constructor at shimmer_listener/_streams.py:134 does not accept, but the argument `_apps[_current_app]` is evaluated first. `_current_app` is only declared (shimmer_listener/_master.py:26), and neither `bt_init` nor any other code shown calls `_master_init`, so in the code as shown the first successful connect raises `NameError` out of the loop. Only after a direct `_master_init` call does it raise `TypeError` instead. Neither exception is modelled, because the two files disagree on the API.
- FrameCodec.DecodeHeader: decodes text fields as ASCII only. A valid multi-byte UTF-8 sequence is reported as `HeaderUndecodable` rather than decoded. Either way, a `UnicodeDecodeError` is not caught, so the thread dies with the stream still open and listed (`Raised`).
- StructCodec.ParseFormat: understands only the codes `b B h H i I` in native mode. Byte-order prefixes, repeat counts, whitespace between codes (`"h h"`) and other codes are reported as a `struct.error`, whereas Python accepts several of them.
- StructCodec.Unpack: floating-point, `s`, `?` and 64-bit codes are not modelled, for the same reason.
- StreamRun.SlaveLoop: with a frame size of 0 and a non-zero chunk length, the code spins on `while self._running` without reading. The model reports this as `Pending`, or as `Closed` once a `stop` call is among the remaining events, rather than as an endless loop.
- StreamRun.RunSlave: ends with `Pending` when the input runs out while the thread waits in `recv`. A real `recv` would block.
- Session.BtClose: requires the registry invariant, which every registry built by the modelled operations satisfies.
- DataFrames.ToDict: a record is a `map`, so it keeps the bindings but not the dictionary's key order. `process` receives a `dict` whose keys iterate in the order of their first occurrence in `keys`, and the model does not state that order.
- `SlaveDataTuple(...)._asdict()` is modelled as the `MasterSample` datatype rather than a dictionary.
- TestVectors.AccelMockStream: the unit tests call a newer constructor and callbacks (`on_connect`, `on_disconnect`) that the stream classes shown here do not have. Only the byte-level frames of the tests and the mock's one-chunk-per-`recv` behaviour are modelled. A `stop` after the first frame stands in for the test's `tearDown`, because the mock would otherwise keep answering forever.
- The test's keys end in `batt`, while the built-in `_apps` descriptor uses `rawbatt`. Both are modelled as given.
- `_console_scripts.py`, `_to_nodered.py` and `examples/` are command-line and forwarding glue.

## Findings

| source | as written | input that shows it | evidently intended | confidence | as-written member | corrected member |
|---|---|---|---|---|---|---|
| shimmer_listener/_streams.py:23-26 | `close_streams` iterates over `_open_conn` while `stop` removes entries from it, so the stream after each stopped one is skipped | two open streams listed as [a, b]: a is stopped and removed, and the iteration ends before b, which stays open and listed | every open stream is stopped, for example by iterating over `list(_open_conn)` | high; not executed | Registry.CloseStreamsSkipsSecond | Registry.CloseStreamsSnapshotStopsAll |
| shimmer_listener/_streams.py:63-66 | `stop` reads and clears `_running` outside `_mutex` and removes the stream inside it | `close_streams` in one thread and `stop` on the same running stream in another both read `_running` as true before either clears it; the second `_open_conn.remove` raises ValueError | the test and clear of `_running` happen under `_mutex` together with the removal, so a second `stop` does nothing | medium; not executed | Registry.OverlappingStopsRaise | Registry.StopIdempotent |

`Registry.CloseStreams` and `Registry.CloseFromSweeps` characterise the loop
as written: it stops exactly the streams the skip-after-each-stop reference
`Registry.Swept` names. `Registry.CloseStreamsSnapshot` is the corrected loop.
`Session.BtClose` calls `close_streams` as written, so that the interface
model matches the code.

`Registry.Unlist` is the locked half of `stop` as written, and
`Registry.OverlappingStopsRaise` interleaves two calls of it. `Registry.Stop`
is the corrected `stop`, with the test inside the lock. The rest of the model
uses it. `Registry.StopValid` and `Registry.StopIdempotent` prove that it never
raises and that a second call does nothing.

=== FILE: bytes.dfy ===
/** Byte strings, little-endian integers and NUL-padded ASCII text: the
    primitive encodings the stream engine reads from the wire. */
module Bytes {

  /** One octet received from the transport. */
  type Byte = x: int | 0 <= x < 256

  function Pow256(n: nat): (r: nat)
    ensures r > 0
  {
    if n == 0 then 1 else 256 * Pow256(n - 1)
  }

  /** Unsigned value of a little-endian byte string (first byte least significant). */
  function LeUnsigned(bs: seq<Byte>): (r: nat)
    ensures r < Pow256(|bs|)
  {
    if |bs| == 0 then 0 else bs[0] + 256 * LeUnsigned(bs[1..])
  }

  /** The `n` little-endian bytes that encode `v`. */
  function LeBytes(v: nat, n: nat): (bs: seq<Byte>)
    requires v < Pow256(n)
    ensures |bs| == n
  {
    if n == 0 then [] else [v % 256] + LeBytes(v / 256, n - 1)
  }

  lemma {:induction false} LeUnsignedOfLeBytes(v: nat, n: nat)
    requires v < Pow256(n)
    ensures LeUnsigned(LeBytes(v, n)) == v
  {
    if n > 0 {
      LeUnsignedOfLeBytes(v / 256, n - 1);
      assert LeBytes(v, n)[1..] == LeBytes(v / 256, n - 1);
    }
  }

  lemma {:induction false} LeBytesOfLeUnsigned(bs: seq<Byte>)
    ensures LeBytes(LeUnsigned(bs), |bs|) == bs
  {
    if |bs| > 0 {
      LeBytesOfLeUnsigned(bs[1..]);
      var v := LeUnsigned(bs);
      assert v % 256 == bs[0] && v / 256 == LeUnsigned(bs[1..]);
    }
  }

  /** Two's-complement reading of an unsigned value below the even modulus `m`. */
  function ToSigned(u: nat, m: nat): (r: int)
    requires m > 0 && m % 2 == 0 && u < m
    ensures -(m / 2) <= r < m / 2
    ensures r >= 0 <==> u < m / 2
  {
    if u < m / 2 then u else u - m
  }

  /** Concatenation of a sequence of byte blocks, in order. */
  function Concat(blocks: seq<seq<Byte>>): (r: seq<Byte>)
  {
    if |blocks| == 0 then [] else Concat(blocks[..|blocks| - 1]) + blocks[|blocks| - 1]
  }

  lemma ConcatAppend(blocks: seq<seq<Byte>>, b: seq<Byte>)
    ensures Concat(blocks + [b]) == Concat(blocks) + b
  {
    assert (blocks + [b])[..|blocks|] == blocks;
  }

  /** The first block comes first. */
  lemma {:induction false} ConcatCons(blocks: seq<seq<Byte>>)
    requires |blocks| > 0
    ensures Concat(blocks) == blocks[0] + Concat(blocks[1..])
  {
    var n := |blocks|;
    if n == 1 {
      assert blocks[..0] == [] && blocks[1..] == [];
    } else {
      var init := blocks[..n - 1];
      ConcatCons(init);
      assert init[0] == blocks[0];
      assert init[1..] == blocks[1..][..n - 2];
      assert blocks[1..][n - 2] == blocks[n - 1];
    }
  }

  /** Blocks of one common width `w` laid end to end take `|blocks| * w` bytes. */
  lemma {:induction false} ConcatLength(blocks: seq<seq<Byte>>, w: nat)
    requires forall i :: 0 <= i < |blocks| ==> |blocks[i]| == w
    ensures |Concat(blocks)| == |blocks| * w
  {
    if |blocks| > 0 {
      ConcatLength(blocks[..|blocks| - 1], w);
    }
  }

  /** The first `j` blocks laid end to end are a prefix of all of them. */
  lemma {:induction false} ConcatPrefix(blocks: seq<seq<Byte>>, j: nat)
    requires j <= |blocks|
    ensures Concat(blocks[..j]) <= Concat(blocks)
  {
    var n := |blocks|;
    if j < n {
      var init := blocks[..n - 1];
      ConcatPrefix(init, j);
      assert init[..j] == blocks[..j];
      assert Concat(blocks) == Concat(init) + blocks[n - 1];
    } else {
      assert blocks[..j] == blocks;
    }
  }

  /** Block `k` of blocks of one common width `w` starts at byte `k * w`. */
  lemma ConcatBlock(blocks: seq<seq<Byte>>, w: nat, k: nat)
    requires forall i :: 0 <= i < |blocks| ==> |blocks[i]| == w
    requires k < |blocks|
    ensures k * w + w <= |Concat(blocks)|
    ensures Concat(blocks)[k * w..k * w + w] == blocks[k]
  {
    var pre := Concat(blocks[..k]);
    ConcatLength(blocks[..k], w);
    var lo := |pre|;
    assert lo == k * w;
    assert blocks[..k + 1][..k] == blocks[..k];
    var upto := Concat(blocks[..k + 1]);
    assert upto == pre + blocks[k];
    ConcatPrefix(blocks, k + 1);
    assert Concat(blocks)[lo..lo + w] == upto[lo..lo + w];
  }

  lemma SliceOfPrefix(a: seq<Byte>, b: seq<Byte>, lo: nat, hi: nat)
    requires lo <= hi <= |a|
    ensures (a + b)[lo..hi] == a[lo..hi]
  {
  }

  function Zeros(n: nat): (r: seq<Byte>)
    ensures |r| == n && forall i :: 0 <= i < n ==> r[i] == 0
  {
    if n == 0 then [] else [0] + Zeros(n - 1)
  }

  /** Bytes below 128: the ones whose UTF-8 decoding is the ASCII character
      with the same code. */
  predicate IsAscii(bs: seq<Byte>)
  {
    forall i :: 0 <= i < |bs| ==> bs[i] < 128
  }

  predicate IsAsciiText(s: string)
  {
    forall i :: 0 <= i < |s| ==> s[i] as int < 128
  }

  function AsciiText(bs: seq<Byte>): (s: string)
    requires IsAscii(bs)
    ensures |s| == |bs| && IsAsciiText(s)
    ensures forall i :: 0 <= i < |bs| ==> s[i] as int == bs[i]
  {
    seq(|bs|, i requires 0 <= i < |bs| => bs[i] as char)
  }

  function AsciiBytes(s: string): (bs: seq<Byte>)
    requires IsAsciiText(s)
    ensures |bs| == |s| && IsAscii(bs)
    ensures forall i :: 0 <= i < |s| ==> bs[i] == s[i] as int
  {
    seq(|s|, i requires 0 <= i < |s| => s[i] as int)
  }

  lemma AsciiRoundTrip(s: string)
    requires IsAsciiText(s)
    ensures AsciiText(AsciiBytes(s)) == s
  {
  }

  lemma ZerosAscii(n: nat)
    ensures IsAscii(Zeros(n))
  {
  }

  lemma AsciiConcat(a: seq<Byte>, b: seq<Byte>)
    requires IsAscii(a) && IsAscii(b)
    ensures IsAscii(a + b) && AsciiText(a + b) == AsciiText(a) + AsciiText(b)
  {
  }

  /** Python's `str.rstrip("\x00")`: drop every trailing NUL character. */
  function RStripNul(s: string): (r: string)
    ensures r <= s
    ensures |r| == 0 || r[|r| - 1] != '\0'
    ensures forall i :: |r| <= i < |s| ==> s[i] == '\0'
  {
    if |s| == 0 then s
    else if s[|s| - 1] == '\0' then RStripNul(s[..|s| - 1])
    else s
  }

  lemma {:induction false} RStripNulPadded(s: string, n: nat)
    requires |s| == 0 || s[|s| - 1] != '\0'
    ensures RStripNul(s + seq(n, _ => '\0')) == s
  {
    if n > 0 {
      var t := s + seq(n, _ => '\0');
      assert t[..|t| - 1] == s + seq(n - 1, _ => '\0');
      RStripNulPadded(s, n - 1);
    }
  }

  lemma RStripNulAllNul(s: string)
    ensures RStripNul(s) == [] <==> forall i :: 0 <= i < |s| ==> s[i] == '\0'
  {
  }
}

=== FILE: data_frames.dfy ===
/** Decoding of the frames that follow the handshake (shimmer_listener/_streams.py):
    a slave mote's data frame is cut into `lenchunks`-byte chunks, each
    unpacked with the announced format and zipped with the key names by
    `_to_dict`; a master mote sends fixed 22-byte frames. */
module DataFrames {
  import opened Results
  import opened Bytes
  import opened StructCodec
  import opened FrameCodec

  /** One decoded chunk, the dictionary handed to `process`. */
  type Record = map<string, int>

  /** What the chunk loop raises; the data loop catches none of them. */
  datatype FrameFault =
    | ZeroStep                          // `range(0, framesize, 0)` raises ValueError
    | ChunkStructError(e: StructError)  // `struct.unpack` of one chunk fails
    | MissingValue                      // `raw_data[idx]` raises IndexError

  /** The dictionary `_to_dict` builds: key `i` is bound to value `i`, a later
      occurrence of a key overwriting an earlier one. */
  function Assign(keys: seq<string>, raw: seq<int>): (d: Record)
    requires |keys| <= |raw|
    ensures d.Keys == set k | k in keys
  {
    if |keys| == 0 then map[]
    else
      var d := Assign(keys[..|keys| - 1], raw);
      assert forall k :: k in keys <==> k in keys[..|keys| - 1] || k == keys[|keys| - 1];
      d[keys[|keys| - 1] := raw[|keys| - 1]]
  }

  /** `_to_dict(raw_data)`: fails with IndexError when there are more keys than values. */
  function ToDict(keys: seq<string>, raw: seq<int>): (r: Result<Record, FrameFault>)
    ensures r.Ok? <==> |keys| <= |raw|
    ensures r.Err? ==> r.error == MissingValue
    ensures r.Ok? ==> r.value.Keys == set k | k in keys
  {
    if |keys| <= |raw| then Ok(Assign(keys, raw)) else Err(MissingValue)
  }

  /** A key is bound to the value at its last position in `keys`. */
  lemma {:induction false} AssignLastWins(keys: seq<string>, raw: seq<int>, i: nat)
    requires |keys| <= |raw| && i < |keys|
    requires forall j :: i < j < |keys| ==> keys[j] != keys[i]
    ensures keys[i] in Assign(keys, raw) && Assign(keys, raw)[keys[i]] == raw[i]
  {
    if i < |keys| - 1 {
      AssignLastWins(keys[..|keys| - 1], raw, i);
    }
  }

  /** With distinct keys, `_to_dict` zips keys and values position by position. */
  lemma ToDictZips(keys: seq<string>, raw: seq<int>)
    requires |keys| <= |raw|
    requires forall i, j :: 0 <= i < j < |keys| ==> keys[i] != keys[j]
    ensures ToDict(keys, raw).Ok?
    ensures forall i :: 0 <= i < |keys| ==> ToDict(keys, raw).value[keys[i]] == raw[i]
  {
    forall i | 0 <= i < |keys|
      ensures Assign(keys, raw)[keys[i]] == raw[i]
    {
      AssignLastWins(keys, raw, i);
    }
  }

  /** `range(lo, hi, step)` for a positive step. */
  function RangeFrom(lo: nat, hi: nat, step: nat): (r: seq<nat>)
    requires step > 0
    ensures |r| == 0 <==> lo >= hi
    ensures |r| > 0 ==> r[0] == lo && r[|r| - 1] < hi <= r[|r| - 1] + step
    ensures forall i :: 0 <= i < |r| ==> lo <= r[i] < hi
    decreases hi - lo
  {
    if lo >= hi then [] else [lo] + RangeFrom(lo + step, hi, step)
  }

  /** Over a whole number `k` of steps, `range` yields exactly `k` offsets,
      each followed by a full step before `hi`. */
  lemma {:induction false} RangeMultiples(lo: nat, hi: nat, step: nat, k: nat)
    requires step > 0 && hi == lo + k * step
    ensures |RangeFrom(lo, hi, step)| == k
    ensures forall i :: 0 <= i < k ==> RangeFrom(lo, hi, step)[i] + step <= hi
    decreases k
  {
    if k > 0 {
      assert hi == (lo + step) + (k - 1) * step;
      RangeMultiples(lo + step, hi, step, k - 1);
    }
  }

  /** The `i`-th offset of `range(lo, hi, step)` is `lo + i * step`. */
  lemma {:induction false} RangeAt(lo: nat, hi: nat, step: nat, i: nat)
    requires step > 0 && i < |RangeFrom(lo, hi, step)|
    ensures RangeFrom(lo, hi, step)[i] == lo + i * step
    decreases i
  {
    if i > 0 {
      RangeAt(lo + step, hi, step, i - 1);
      assert lo + step + (i - 1) * step == lo + i * step;
    }
  }

  /** When `lenchunks` divides `framesize` the chunk loop visits exactly
      `framesize / lenchunks` offsets. */
  lemma ChunkCount(frameSize: nat, lenChunks: nat)
    requires lenChunks > 0 && frameSize % lenChunks == 0
    ensures |RangeFrom(0, frameSize, lenChunks)| == frameSize / lenChunks
  {
    var k := frameSize / lenChunks;
    assert frameSize == 0 + k * lenChunks;
    RangeMultiples(0, frameSize, lenChunks, k);
  }

  /** `data[lo:lo + len]`: a Python slice is cut short at the end of the data. */
  function ChunkAt(data: seq<Byte>, lo: nat, len: nat): (c: seq<Byte>)
    requires lo <= |data|
    ensures |c| <= len
    ensures lo + len <= |data| ==> c == data[lo..lo + len]
  {
    if lo + len <= |data| then data[lo..lo + len] else data[lo..]
  }

  /** One iteration of the chunk loop: unpack, then `_to_dict`. A chunk
      yields a record exactly when it unpacks and the format has at least as
      many fields as there are keys; the record then holds exactly the keys. */
  function ChunkRecord(info: FrameInfo, chunk: seq<Byte>): (r: Result<Record, FrameFault>)
    ensures r.Ok? <==> Unpack(info.format, chunk).Ok? && |info.keys| <= |info.format|
    ensures r.Ok? ==> r.value.Keys == set k | k in info.keys
    ensures Unpack(info.format, chunk).Err? ==> r == Err(ChunkStructError(Unpack(info.format, chunk).error))
  {
    match Unpack(info.format, chunk)
    case Err(e) => Err(ChunkStructError(e))
    case Ok(raw) => ToDict(info.keys, raw)
  }

  /** The records handed to `process` for one frame, and the exception that
      ended the chunk loop early, if any. */
  datatype FrameResult = FrameResult(records: seq<Record>, fault: Option<FrameFault>)

  /** The outcome of the loop iteration for the chunk at offset `lo`. */
  function RecordAt(info: FrameInfo, data: seq<Byte>, lo: nat): Result<Record, FrameFault>
    requires lo <= |data|
  {
    ChunkRecord(info, ChunkAt(data, lo, info.lenChunks))
  }

  /** The chunk loop over the offsets `starts`, stopping at the first failure. */
  function DecodeChunks(info: FrameInfo, data: seq<Byte>, starts: seq<nat>): (out: FrameResult)
    requires forall i :: 0 <= i < |starts| ==> starts[i] <= |data|
    ensures |out.records| <= |starts|
    ensures out.fault.None? ==> |out.records| == |starts|
  {
    if |starts| == 0 then FrameResult([], None)
    else match RecordAt(info, data, starts[0])
      case Err(f) => FrameResult([], Some(f))
      case Ok(rec) =>
        var rest := DecodeChunks(info, data, starts[1..]);
        FrameResult([rec] + rest.records, rest.fault)
  }

  /** Record `k` is the dictionary of the chunk at `starts[k]`, and a fault
      is the exception of the first chunk that did not become a record. */
  lemma {:induction false} DecodeChunksSpec(info: FrameInfo, data: seq<Byte>, starts: seq<nat>)
    requires forall i :: 0 <= i < |starts| ==> starts[i] <= |data|
    ensures var out := DecodeChunks(info, data, starts);
      && (forall k :: 0 <= k < |out.records| ==> RecordAt(info, data, starts[k]) == Ok(out.records[k]))
      && (out.fault.Some? ==>
            |out.records| < |starts| && RecordAt(info, data, starts[|out.records|]) == Err(out.fault.value))
  {
    if |starts| > 0 {
      match RecordAt(info, data, starts[0])
      case Err(f) =>
      case Ok(rec) =>
        var rest := DecodeChunks(info, data, starts[1..]);
        DecodeChunksSpec(info, data, starts[1..]);
        DecodeChunksCons(info, data, starts, rec, rest);
    }
  }

  /** A successful first chunk followed by the loop over the other offsets. */
  lemma DecodeChunksCons(info: FrameInfo, data: seq<Byte>, starts: seq<nat>, rec: Record, rest: FrameResult)
    requires |starts| > 0 && forall i :: 0 <= i < |starts| ==> starts[i] <= |data|
    requires RecordAt(info, data, starts[0]) == Ok(rec)
    requires |rest.records| <= |starts| - 1
    requires rest.fault.None? ==> |rest.records| == |starts| - 1
    requires forall k :: 0 <= k < |rest.records| ==> RecordAt(info, data, starts[k + 1]) == Ok(rest.records[k])
    requires rest.fault.Some? ==>
      |rest.records| < |starts| - 1 && RecordAt(info, data, starts[|rest.records| + 1]) == Err(rest.fault.value)
    ensures var out := FrameResult([rec] + rest.records, rest.fault);
      && (forall k :: 0 <= k < |out.records| ==> RecordAt(info, data, starts[k]) == Ok(out.records[k]))
      && (out.fault.Some? ==>
            |out.records| < |starts| && RecordAt(info, data, starts[|out.records|]) == Err(out.fault.value))
  {
    var recs := [rec] + rest.records;
    forall k | 0 <= k < |recs|
      ensures RecordAt(info, data, starts[k]) == Ok(recs[k])
    {
      if k > 0 {
        assert recs[k] == rest.records[k - 1];
      }
    }
  }

  /** The body of the slave data loop after a frame has been accumulated:
      `process` gets one record per chunk offset `0, lenchunks, 2 * lenchunks, …`
      below `framesize`, in order, until a chunk fails. */
  function DecodeFrame(info: FrameInfo, data: seq<Byte>): (out: FrameResult)
    requires |data| >= info.frameSize
    ensures info.lenChunks == 0 ==> out == FrameResult([], Some(ZeroStep))
    ensures info.lenChunks > 0 ==>
      var starts := RangeFrom(0, info.frameSize, info.lenChunks);
      && |out.records| <= |starts|
      && (out.fault.None? ==> |out.records| == |starts|)
  {
    if info.lenChunks == 0 then FrameResult([], Some(ZeroStep))
    else DecodeChunks(info, data, RangeFrom(0, info.frameSize, info.lenChunks))
  }

  /** Record `k` of a frame is the dictionary of the chunk at offset
      `k * lenchunks`'s place in `range(0, framesize, lenchunks)`; a fault is
      the exception of the first chunk that did not become a record. */
  lemma DecodeFrameSpec(info: FrameInfo, data: seq<Byte>)
    requires |data| >= info.frameSize && info.lenChunks > 0
    ensures var out := DecodeFrame(info, data);
      var starts := RangeFrom(0, info.frameSize, info.lenChunks);
      && (forall k :: 0 <= k < |out.records| ==> RecordAt(info, data, starts[k]) == Ok(out.records[k]))
      && (out.fault.Some? ==>
            |out.records| < |starts| && RecordAt(info, data, starts[|out.records|]) == Err(out.fault.value))
  {
    DecodeChunksSpec(info, data, RangeFrom(0, info.frameSize, info.lenChunks));
  }

  /** A descriptor whose frames decode without error: the chunk length divides
      the frame size, the format's packed size is the chunk length, and there
      is one key per field. */
  predicate WellFormed(info: FrameInfo)
  {
    && info.lenChunks > 0
    && info.frameSize % info.lenChunks == 0
    && ParseFormat(info.format).Ok?
    && CalcSize(ParseFormat(info.format).value) == info.lenChunks
    && |info.keys| == |info.format|
  }

  /** For a well-formed descriptor every frame yields `framesize / lenchunks`
      records and no exception. */
  lemma WellFormedFrame(info: FrameInfo, data: seq<Byte>)
    requires WellFormed(info) && |data| >= info.frameSize
    ensures DecodeFrame(info, data).fault.None?
    ensures |DecodeFrame(info, data).records| == info.frameSize / info.lenChunks
  {
    var n := info.frameSize / info.lenChunks;
    var starts := RangeFrom(0, info.frameSize, info.lenChunks);
    ChunkCount(info.frameSize, info.lenChunks);
    assert info.frameSize == 0 + n * info.lenChunks;
    RangeMultiples(0, info.frameSize, info.lenChunks, n);
    FullChunks(info, data, starts);
  }

  /** Every record handed to `process` has exactly the descriptor's keys. */
  lemma RecordsCarryKeys(info: FrameInfo, data: seq<Byte>)
    requires |data| >= info.frameSize
    ensures forall k :: 0 <= k < |DecodeFrame(info, data).records| ==>
      DecodeFrame(info, data).records[k].Keys == set key | key in info.keys
  {
    var out := DecodeFrame(info, data);
    if info.lenChunks > 0 {
      var starts := RangeFrom(0, info.frameSize, info.lenChunks);
      DecodeFrameSpec(info, data);
      forall k | 0 <= k < |out.records|
        ensures out.records[k].Keys == set key | key in info.keys
      {
        assert RecordAt(info, data, starts[k]) == Ok(out.records[k]);
      }
    }
  }

  /** The chunk loop does not fail while every chunk is complete. */
  lemma {:induction false} FullChunks(info: FrameInfo, data: seq<Byte>, starts: seq<nat>)
    requires WellFormed(info)
    requires forall i :: 0 <= i < |starts| ==> starts[i] + info.lenChunks <= |data|
    ensures DecodeChunks(info, data, starts).fault.None?
  {
    if |starts| > 0 {
      WellFormedChunk(info, ChunkAt(data, starts[0], info.lenChunks));
      FullChunks(info, data, starts[1..]);
    }
  }

  /** Under a well-formed descriptor every full chunk becomes a record. */
  lemma WellFormedChunk(info: FrameInfo, chunk: seq<Byte>)
    requires WellFormed(info) && |chunk| == info.lenChunks
    ensures ChunkRecord(info, chunk).Ok?
  {
  }

  /** Bytes past `cut` reach no chunk that ends by `cut`. */
  lemma {:induction false} DecodeChunksCut(info: FrameInfo, data: seq<Byte>, cut: nat, starts: seq<nat>)
    requires cut <= |data|
    requires forall i :: 0 <= i < |starts| ==> starts[i] + info.lenChunks <= cut
    ensures DecodeChunks(info, data, starts) == DecodeChunks(info, data[..cut], starts)
  {
    if |starts| > 0 {
      assert ChunkAt(data, starts[0], info.lenChunks) == ChunkAt(data[..cut], starts[0], info.lenChunks);
      DecodeChunksCut(info, data, cut, starts[1..]);
    }
  }

  /** When `lenchunks` divides `framesize` every chunk ends by `framesize`, so
      the bytes a `recv` brought in beyond the frame reach no record. */
  lemma DividingChunksIgnoreSurplus(info: FrameInfo, data: seq<Byte>)
    requires info.lenChunks > 0 && info.frameSize % info.lenChunks == 0
    requires |data| >= info.frameSize
    ensures DecodeFrame(info, data) == DecodeFrame(info, data[..info.frameSize])
  {
    var n := info.frameSize / info.lenChunks;
    assert info.frameSize == 0 + n * info.lenChunks;
    RangeMultiples(0, info.frameSize, info.lenChunks, n);
    DecodeChunksCut(info, data, info.frameSize, RangeFrom(0, info.frameSize, info.lenChunks));
  }

  /** When `lenchunks` does not divide `framesize` the last slice runs past the
      frame. Under `frameinfo(10, 4, "hh", ...)` the chunk at offset 8 is
      whole when the `recv` that completed the frame brought two bytes more,
      and is two bytes short, a `struct.error`, when it brought exactly ten. */
  lemma NonDividingChunkReadsSurplus()
    ensures var info := FrameInfo(10, 4, "hh", ["x", "y"]);
      var data: seq<Byte> := [1, 0, 2, 0, 3, 0, 4, 0, 5, 0, 6, 0];
      && DecodeFrame(info, data).fault.None?
      && |DecodeFrame(info, data).records| == 3
      && DecodeFrame(info, data[..10]).fault.Some?
      && |DecodeFrame(info, data[..10]).records| == 2
  {
    var info := FrameInfo(10, 4, "hh", ["x", "y"]);
    var data: seq<Byte> := [1, 0, 2, 0, 3, 0, 4, 0, 5, 0, 6, 0];
    var short := data[..10];
    assert RangeFrom(0, 10, 4) == [0, 4, 8] by {
      assert RangeFrom(8, 10, 4) == [8] + RangeFrom(12, 10, 4);
      assert RangeFrom(4, 10, 4) == [4] + RangeFrom(8, 10, 4);
    }
    var whole := DecodeChunks(info, data, [8]);
    assert whole.fault.None? && |whole.records| == 1 by {
      HhChunk(info, ChunkAt(data, 8, 4));
    }
    var cut := DecodeChunks(info, short, [8]);
    assert cut.fault.Some? && cut.records == [] by {
      HhChunk(info, ChunkAt(short, 8, 4));
    }
    HhChunk(info, ChunkAt(data, 0, 4));
    HhChunk(info, ChunkAt(data, 4, 4));
    HhChunk(info, ChunkAt(short, 0, 4));
    HhChunk(info, ChunkAt(short, 4, 4));
    DecodeChunksStep(info, data, [4, 8]);
    DecodeChunksStep(info, data, [0, 4, 8]);
    DecodeChunksStep(info, short, [4, 8]);
    DecodeChunksStep(info, short, [0, 4, 8]);
  }

  /** Under the two-field format `"hh"` with two keys, a chunk gives a record
      exactly when it is four bytes long. */
  lemma HhChunk(info: FrameInfo, chunk: seq<Byte>)
    requires info.format == "hh" && |info.keys| == 2
    ensures ChunkRecord(info, chunk).Ok? <==> |chunk| == 4
  {
    var codes := [I16, I16];
    assert FormatOf(codes) == "hh" by {
      assert FormatOf(codes)[0] == 'h' && FormatOf(codes)[1] == 'h';
    }
    ParseFormatOf(codes);
    EndFromWords(codes, 0, 2);
  }

  /** A chunk that yields a record adds it in front of the rest of the
      frame's records and leaves the rest's fault unchanged. */
  lemma DecodeChunksStep(info: FrameInfo, data: seq<Byte>, starts: seq<nat>)
    requires |starts| > 0 && forall i :: 0 <= i < |starts| ==> starts[i] <= |data|
    requires RecordAt(info, data, starts[0]).Ok?
    ensures DecodeChunks(info, data, starts).fault == DecodeChunks(info, data, starts[1..]).fault
    ensures |DecodeChunks(info, data, starts).records| == 1 + |DecodeChunks(info, data, starts[1..]).records|
  {
  }

  /** The samples a frame can carry under `codes`: one in-range value per field. */
  predicate Fits(codes: seq<Code>, samples: seq<seq<int>>)
  {
    forall k :: 0 <= k < |samples| ==>
      |samples[k]| == |codes| && forall i :: 0 <= i < |codes| ==> InRange(codes[i], samples[k][i])
  }

  /** Each sample packed with `codes`. */
  function PackAll(codes: seq<Code>, samples: seq<seq<int>>): (chunks: seq<seq<Byte>>)
    requires Fits(codes, samples)
    ensures |chunks| == |samples|
    ensures forall k :: 0 <= k < |samples| ==> chunks[k] == Pack(codes, samples[k])
    ensures forall k :: 0 <= k < |samples| ==> |chunks[k]| == CalcSize(codes)
  {
    seq(|samples|, k requires 0 <= k < |samples| => Pack(codes, samples[k]))
  }

  /** The data frame a mote sends for a sequence of samples: the packed
      samples laid end to end. */
  function EncodeFrame(codes: seq<Code>, samples: seq<seq<int>>): (bs: seq<Byte>)
    requires Fits(codes, samples)
  {
    Concat(PackAll(codes, samples))
  }

  /** Round trip: a frame packed from samples with a well-formed descriptor's
      own format is decoded back to one record per sample, in order. */
  lemma DecodeEncodeFrame(info: FrameInfo, codes: seq<Code>, samples: seq<seq<int>>)
    requires WellFormed(info) && ParseFormat(info.format) == Ok(codes)
    requires |samples| * info.lenChunks == info.frameSize
    requires Fits(codes, samples)
    ensures |EncodeFrame(codes, samples)| == info.frameSize
    ensures var out := DecodeFrame(info, EncodeFrame(codes, samples));
      && out.fault.None? && |out.records| == |samples|
      && forall k :: 0 <= k < |samples| ==> ToDict(info.keys, samples[k]) == Ok(out.records[k])
  {
    var chunks := PackAll(codes, samples);
    ConcatLength(chunks, info.lenChunks);
    var data := EncodeFrame(codes, samples);
    WellFormedFrame(info, data);
    var out := DecodeFrame(info, data);
    var starts := RangeFrom(0, info.frameSize, info.lenChunks);
    DecodeFrameSpec(info, data);
    RangeMultiples(0, info.frameSize, info.lenChunks, |samples|);
    assert |out.records| == |starts| == |samples|;
    forall k | 0 <= k < |samples|
      ensures ToDict(info.keys, samples[k]) == Ok(out.records[k])
    {
      EncodedChunk(info, codes, samples, k);
      assert RecordAt(info, data, starts[k]) == Ok(out.records[k]);
    }
  }

  /** A frame that repeats one sample is delivered as repeats of one record. */
  lemma RepeatedSampleFrame(info: FrameInfo, codes: seq<Code>, vals: seq<int>, n: nat)
    requires WellFormed(info) && ParseFormat(info.format) == Ok(codes)
    requires n * info.lenChunks == info.frameSize
    requires |vals| == |codes| && forall i :: 0 <= i < |codes| ==> InRange(codes[i], vals[i])
    ensures Fits(codes, seq(n, _ => vals))
    ensures ToDict(info.keys, vals).Ok?
    ensures |EncodeFrame(codes, seq(n, _ => vals))| == info.frameSize
    ensures DecodeFrame(info, EncodeFrame(codes, seq(n, _ => vals)))
      == FrameResult(seq(n, _ => ToDict(info.keys, vals).value), None)
  {
    var samples := seq(n, _ => vals);
    DecodeEncodeFrame(info, codes, samples);
    var out := DecodeFrame(info, EncodeFrame(codes, samples));
    assert out.records == seq(n, _ => ToDict(info.keys, vals).value);
  }

  /** Chunk `k` of an encoded frame is read back as the dictionary of sample `k`. */
  lemma EncodedChunk(info: FrameInfo, codes: seq<Code>, samples: seq<seq<int>>, k: nat)
    requires WellFormed(info) && ParseFormat(info.format) == Ok(codes)
    requires |samples| * info.lenChunks == info.frameSize
    requires Fits(codes, samples) && k < |samples|
    ensures var starts := RangeFrom(0, info.frameSize, info.lenChunks);
      k < |starts| && starts[k] <= |EncodeFrame(codes, samples)|
      && RecordAt(info, EncodeFrame(codes, samples), starts[k]) == ToDict(info.keys, samples[k])
  {
    var chunks := PackAll(codes, samples);
    var data := EncodeFrame(codes, samples);
    var w := info.lenChunks;
    RangeMultiples(0, info.frameSize, w, |samples|);
    RangeAt(0, info.frameSize, w, k);
    ConcatBlock(chunks, w, k);
    PackedChunk(info, codes, data, k * w, samples[k]);
  }

  /** A chunk packed with the descriptor's own codes is read back as the
      dictionary of the packed values. */
  lemma PackedChunk(info: FrameInfo, codes: seq<Code>, data: seq<Byte>, lo: nat, vals: seq<int>)
    requires ParseFormat(info.format) == Ok(codes) && CalcSize(codes) == info.lenChunks
    requires |vals| == |codes| && forall i :: 0 <= i < |codes| ==> InRange(codes[i], vals[i])
    requires lo + info.lenChunks <= |data| && data[lo..lo + info.lenChunks] == Pack(codes, vals)
    ensures RecordAt(info, data, lo) == ToDict(info.keys, vals)
  {
    ParseFormatOf(codes);
    FormatOfParsed(info.format, codes);
    UnpackPack(codes, vals);
  }

  lemma FormatOfParsed(fmt: string, codes: seq<Code>)
    requires ParseFormat(fmt) == Ok(codes)
    ensures FormatOf(codes) == fmt
  {
  }

  /** `"hhhh"`: four signed 16-bit fields. */
  lemma FormatHhhh()
    ensures FormatOf([I16, I16, I16, I16]) == "hhhh"
    ensures ParseFormat("hhhh") == Ok([I16, I16, I16, I16])
  {
    var f := FormatOf([I16, I16, I16, I16]);
    assert f[0] == 'h' && f[1] == 'h' && f[2] == 'h' && f[3] == 'h';
    ParseFormatOf([I16, I16, I16, I16]);
  }

  /** The fixed frame of a master mote (`BtMasterInputStream._framesize`). */
  const MasterFrameSize: nat := 22

  /** `struct.unpack("HHHHHHHB", data[7:22])`: six sensor words, one ignored
      word and one ignored byte. */
  const MasterTailCodes: seq<Code> := [U16, U16, U16, U16, U16, U16, U16, U8]

  /** `SlaveDataTuple(mac, accel_x, accel_y, accel_z, gyro_x, gyro_y, gyro_z)`. */
  datatype MasterSample = MasterSample(
    mac: string, accelX: int, accelY: int, accelZ: int, gyroX: int, gyroY: int, gyroZ: int)

  /** Little-endian unsigned 16-bit word at byte offset `o`. */
  function U16At(data: seq<Byte>, o: nat): nat
    requires o + 2 <= |data|
  {
    data[o] as int + 256 * (data[o + 1] as int)
  }

  lemma MasterTailLayout(tail: seq<Byte>)
    requires |tail| == 15
    ensures Unpack(FormatOf(MasterTailCodes), tail).Ok?
    ensures var v := Unpack(FormatOf(MasterTailCodes), tail).value;
      |v| == 8 && forall i :: 0 <= i < 6 ==> v[i] == U16At(tail, 2 * i)
  {
    var codes := MasterTailCodes;
    MasterTailSize();
    var v := ValuesFrom(codes, tail, 0);
    MasterTailWords();
    forall i | 0 <= i < 6
      ensures v[i] == U16At(tail, 2 * i)
    {
      ValuesFromWords(codes, tail, 0, 7, i, 2 * i);
    }
  }

  lemma MasterTailWords()
    ensures LeadingWords(MasterTailCodes, 7)
  {
    var codes := MasterTailCodes;
    assert LeadingWords(codes[6..], 1);
    assert LeadingWords(codes[5..], 2) by { assert codes[5..][1..] == codes[6..]; }
    assert LeadingWords(codes[4..], 3) by { assert codes[4..][1..] == codes[5..]; }
    assert LeadingWords(codes[3..], 4) by { assert codes[3..][1..] == codes[4..]; }
    assert LeadingWords(codes[2..], 5) by { assert codes[2..][1..] == codes[3..]; }
    assert LeadingWords(codes[1..], 6) by { assert codes[1..][1..] == codes[2..]; }
  }

  /** `"HHHHHHHB"` is understood and packs into 15 bytes. */
  lemma MasterTailSize()
    ensures ParseFormat(FormatOf(MasterTailCodes)) == Ok(MasterTailCodes)
    ensures CalcSize(MasterTailCodes) == 15
  {
    var codes := MasterTailCodes;
    ParseFormatOf(codes);
    EndFromWords(codes, 0, 7);
    assert codes[7..] == [U8];
  }

  /** Two-byte fields laid out from an even offset take two bytes each. */
  lemma {:induction false} EndFromWords(codes: seq<Code>, start: nat, n: nat)
    requires n <= |codes| && forall j :: 0 <= j < n ==> Width(codes[j]) == 2
    requires start % 2 == 0
    ensures EndFrom(codes, start) == EndFrom(codes[n..], start + 2 * n)
  {
    if n > 0 {
      assert AlignUp(start, Width(codes[0])) == start;
      EndFromWords(codes[1..], start + 2, n - 1);
      assert codes[1..][n - 1..] == codes[n..];
    }
  }

  /** The first `n` codes are all `U16`. */
  predicate LeadingWords(codes: seq<Code>, n: nat)
  {
    n == 0 || (|codes| > 0 && codes[0] == U16 && LeadingWords(codes[1..], n - 1))
  }

  /** The `i`-th field of a layout whose first `i + 1` fields are 16-bit words,
      starting at an even offset, is the word at `start + 2 * i`. */
  lemma {:induction false} ValuesFromWords(codes: seq<Code>, buf: seq<Byte>, start: nat, n: nat, i: nat, at: nat)
    requires i < n <= |codes| && LeadingWords(codes, n)
    requires Aligned(start, 2) && EndFrom(codes, start) <= |buf|
    requires at == start + 2 * i
    ensures at + 2 <= |buf|
    ensures ValuesFrom(codes, buf, start)[i] == U16At(buf, at)
    decreases i
  {
    LeadingWord(codes, buf, start);
    if i > 0 {
      var tail := codes[1..];
      assert LeadingWords(tail, n - 1) && i - 1 < n - 1 <= |tail|;
      ValuesFromWords(tail, buf, start + 2, n - 1, i - 1, at);
      IndexAfterHead(ValuesFrom(codes, buf, start), ValuesFrom(tail, buf, start + 2), U16At(buf, start), i, U16At(buf, at));
    }
  }

  lemma IndexAfterHead(vs: seq<int>, rest: seq<int>, h: int, i: nat, x: int)
    requires vs == [h] + rest && 0 < i <= |rest| && rest[i - 1] == x
    ensures vs[i] == x
  {
  }

  /** A leading 16-bit field at an even offset is the word there; the other
      fields are read from the two bytes after it. */
  lemma {:induction false} LeadingWord(codes: seq<Code>, buf: seq<Byte>, start: nat)
    requires |codes| > 0 && codes[0] == U16
    requires Aligned(start, 2) && EndFrom(codes, start) <= |buf|
    ensures start + 2 <= EndFrom(codes[1..], start + 2) <= |buf|
    ensures Aligned(start + 2, 2)
    ensures ValuesFrom(codes, buf, start) == [U16At(buf, start)] + ValuesFrom(codes[1..], buf, start + 2)
  {
    assert AlignUp(start, Width(codes[0])) == start;
    U16Field(buf, start);
  }

  lemma U16Field(buf: seq<Byte>, o: nat)
    requires o + 2 <= |buf|
    ensures FieldValue(U16, buf[o..o + 2]) == U16At(buf, o)
  {
    var w := buf[o..o + 2];
    assert LeUnsigned(w) == w[0] + 256 * LeUnsigned(w[1..]);
    assert LeUnsigned(w[1..]) == w[1] + 256 * LeUnsigned(w[2..]);
  }

  /** `BtMasterInputStream.run` for one frame: the six sensor words, tagged
      with the mote's MAC address. */
  function DecodeMasterFrame(mac: string, frame: seq<Byte>): (r: MasterSample)
    requires |frame| == MasterFrameSize
  {
    MasterSample(mac, U16At(frame, 7), U16At(frame, 9), U16At(frame, 11),
                 U16At(frame, 13), U16At(frame, 15), U16At(frame, 17))
  }

  /** The six words are the first six values of `struct.unpack("HHHHHHHB",
      data[7:22])`; the unpack cannot fail on a 22-byte frame. */
  lemma DecodeMasterFrameUnpacks(mac: string, frame: seq<Byte>)
    requires |frame| == MasterFrameSize
    ensures var u := Unpack(FormatOf(MasterTailCodes), frame[7..22]);
      var r := DecodeMasterFrame(mac, frame);
      && u.Ok? && |u.value| == 8 && r.mac == mac
      && u.value[..6] == [r.accelX, r.accelY, r.accelZ, r.gyroX, r.gyroY, r.gyroZ]
  {
    var tail := frame[7..22];
    MasterTailLayout(tail);
    var v := Unpack(FormatOf(MasterTailCodes), tail).value;
    forall i | 0 <= i < 6
      ensures v[i] == U16At(frame, 7 + 2 * i)
    {
      assert U16At(tail, 2 * i) == U16At(frame, 7 + 2 * i);
    }
  }

  /** A master frame with the given six words, header and trailer bytes. */
  function EncodeMasterFrame(head: seq<Byte>, words: seq<nat>, trailer: seq<Byte>): (frame: seq<Byte>)
    requires |head| == 7 && |words| == 6 && |trailer| == 3
    requires forall i :: 0 <= i < 6 ==> words[i] < 65536
    ensures |frame| == MasterFrameSize
  {
    head + LeBytes(words[0], 2) + LeBytes(words[1], 2) + LeBytes(words[2], 2)
      + LeBytes(words[3], 2) + LeBytes(words[4], 2) + LeBytes(words[5], 2) + trailer
  }

  /** Round trip: the words are recovered whatever the ignored header and trailer hold. */
  lemma DecodeEncodeMasterFrame(mac: string, head: seq<Byte>, words: seq<nat>, trailer: seq<Byte>)
    requires |head| == 7 && |words| == 6 && |trailer| == 3
    requires forall i :: 0 <= i < 6 ==> words[i] < 65536
    ensures DecodeMasterFrame(mac, EncodeMasterFrame(head, words, trailer))
      == MasterSample(mac, words[0], words[1], words[2], words[3], words[4], words[5])
  {
    var frame := EncodeMasterFrame(head, words, trailer);
    forall i | 0 <= i < 6
      ensures U16At(frame, 7 + 2 * i) == words[i]
    {
      assert frame[7 + 2 * i..9 + 2 * i] == LeBytes(words[i], 2);
      LeUnsignedOfLeBytes(words[i], 2);
    }
  }
}

=== FILE: frame_codec.dfy ===
/** The byte formats of the stream engine (shimmer_listener/_streams.py):
    the 112-byte presentation frame a slave mote sends once, the data frames
    cut into chunks that follow it, and the fixed 22-byte frame of a master
    mote. */
module FrameCodec {
  import opened Results
  import opened Bytes
  import opened StructCodec

  /** `frameinfo(framesize, lenchunks, format, keys)`. */
  datatype FrameInfo = FrameInfo(frameSize: nat, lenChunks: nat, format: string, keys: seq<string>)

  /** Presentation frame layout `"BB10s100s"`: two one-byte sizes, a 10-byte
      format field and ten 10-byte key slots. */
  const HeaderSize: nat := 112
  const FormatStart: nat := 2
  const FormatLen: nat := 10
  const KeysStart: nat := 12
  const KeyLen: nat := 10
  const KeySlots: nat := 10

  /** `struct.error` (the buffer is not 112 bytes long) is caught by the
      stream; a `UnicodeDecodeError` from a text field is not. */
  datatype HeaderError = HeaderStructError | HeaderUndecodable

  predicate NoTrailingNul(s: string)
  {
    |s| == 0 || s[|s| - 1] != '\0'
  }

  /** A key as `_init_frameinfo` can produce it: a non-empty, NUL-stripped slot. */
  predicate IsKeyText(k: string)
  {
    0 < |k| <= KeyLen && IsAsciiText(k) && NoTrailingNul(k)
  }

  /** The descriptors a presentation frame can carry. */
  predicate Representable(info: FrameInfo)
  {
    && info.frameSize < 256
    && info.lenChunks < 256
    && |info.format| <= FormatLen && IsAsciiText(info.format) && NoTrailingNul(info.format)
    && |info.keys| <= KeySlots
    && forall i :: 0 <= i < |info.keys| ==> IsKeyText(info.keys[i])
  }

  /** Text of key slot `k` of the 100-byte key region, trailing NULs stripped. */
  function SlotText(region: seq<Byte>, k: nat): (s: string)
    requires |region| == KeyLen * KeySlots && IsAscii(region) && k < KeySlots
    ensures IsSlotText(s)
  {
    RStripNul(AsciiText(region[KeyLen * k..KeyLen * k + KeyLen]))
  }

  predicate IsSlotText(s: string)
  {
    |s| <= KeyLen && IsAsciiText(s) && NoTrailingNul(s)
  }

  /** The ten slot texts of the key region, in slot order. */
  function Slots(region: seq<Byte>): (ss: seq<string>)
    requires |region| == KeyLen * KeySlots && IsAscii(region)
    ensures |ss| == KeySlots
    ensures forall k :: 0 <= k < KeySlots ==> ss[k] == SlotText(region, k)
  {
    seq(KeySlots, k requires 0 <= k < KeySlots => SlotText(region, k))
  }

  /** The elements of `ss` that are not the empty string, in order. */
  function NonEmpty(ss: seq<string>): (r: seq<string>)
    ensures |r| <= |ss|
    ensures forall i :: 0 <= i < |r| ==> r[i] != []
    ensures forall s :: s in r <==> s in ss && s != []
    ensures |ss| == 1 ==> r == (if ss[0] == [] then [] else ss)
  {
    if |ss| == 0 then []
    else if ss[0] == [] then NonEmpty(ss[1..])
    else [ss[0]] + NonEmpty(ss[1..])
  }

  /** The filter keeps order and repeats: filtering two runs of slots one
      after the other is filtering each and joining the results. */
  lemma {:induction false} NonEmptyAppend(a: seq<string>, b: seq<string>)
    ensures NonEmpty(a + b) == NonEmpty(a) + NonEmpty(b)
  {
    if |a| == 0 {
      assert a + b == b;
    } else {
      var ab := a + b;
      assert ab[0] == a[0] && ab[1..] == a[1..] + b;
      var h: seq<string> := if a[0] == [] then [] else [a[0]];
      assert NonEmpty(ab) == h + NonEmpty(a[1..] + b);
      assert NonEmpty(a) == h + NonEmpty(a[1..]);
      NonEmptyAppend(a[1..], b);
      assert h + (NonEmpty(a[1..]) + NonEmpty(b)) == (h + NonEmpty(a[1..])) + NonEmpty(b);
    }
  }

  lemma NonEmptySlotsAreKeys(ss: seq<string>)
    requires forall i :: 0 <= i < |ss| ==> IsSlotText(ss[i])
    ensures forall i :: 0 <= i < |NonEmpty(ss)| ==> IsKeyText(NonEmpty(ss)[i])
  {
    var r := NonEmpty(ss);
    forall i | 0 <= i < |r|
      ensures IsKeyText(r[i])
    {
      assert r[i] in r;
      var j :| 0 <= j < |ss| && ss[j] == r[i];
    }
  }

  /** `_init_frameinfo`: unpack `"BB10s100s"`, strip trailing NULs from the
      format and from each key slot, and drop the slots left empty. */
  function DecodeHeader(buf: seq<Byte>): (r: Result<FrameInfo, HeaderError>)
    ensures r.Ok? <==> |buf| == HeaderSize && IsAscii(buf[FormatStart..KeysStart]) && IsAscii(buf[KeysStart..])
    ensures |buf| != HeaderSize ==> r == Err(HeaderStructError)
    ensures r.Ok? ==> r.value.frameSize == buf[0] && r.value.lenChunks == buf[1]
    ensures r.Ok? ==> Representable(r.value)
  {
    if |buf| != HeaderSize then Err(HeaderStructError)
    else if !IsAscii(buf[FormatStart..KeysStart]) || !IsAscii(buf[KeysStart..]) then Err(HeaderUndecodable)
    else
      var format := RStripNul(AsciiText(buf[FormatStart..KeysStart]));
      var slots := Slots(buf[KeysStart..]);
      NonEmptySlotsAreKeys(slots);
      Ok(FrameInfo(buf[0], buf[1], format, NonEmpty(slots)))
  }

  /** The decoded format is bytes 2..11 up to the NUL padding that ends them. */
  lemma DecodeHeaderFormat(buf: seq<Byte>)
    requires DecodeHeader(buf).Ok?
    ensures var f := DecodeHeader(buf).value.format;
      && |f| <= FormatLen && NoTrailingNul(f)
      && (forall i :: 0 <= i < |f| ==> f[i] as int == buf[FormatStart + i])
      && (forall i :: FormatStart + |f| <= i < KeysStart ==> buf[i] == 0)
  {
    var f := DecodeHeader(buf).value.format;
    var text := AsciiText(buf[FormatStart..KeysStart]);
    assert f == RStripNul(text);
    forall i | FormatStart + |f| <= i < KeysStart
      ensures buf[i] == 0
    {
      assert text[i - FormatStart] == '\0';
    }
  }

  /** The decoded keys are the key slots that hold more than NULs, in slot
      order and with repeats kept. */
  lemma DecodeHeaderKeys(buf: seq<Byte>)
    requires DecodeHeader(buf).Ok?
    ensures IsAscii(buf[KeysStart..]) && |buf[KeysStart..]| == KeyLen * KeySlots
    ensures DecodeHeader(buf).value.keys == NonEmpty(Slots(buf[KeysStart..]))
    ensures forall s :: s in DecodeHeader(buf).value.keys <==>
      s != [] && exists k :: 0 <= k < KeySlots && s == SlotText(buf[KeysStart..], k)
  {
    var slots := Slots(buf[KeysStart..]);
    assert DecodeHeader(buf).value.keys == NonEmpty(slots);
    forall s
      ensures s in slots <==> exists k :: 0 <= k < KeySlots && s == SlotText(buf[KeysStart..], k)
    {
      if s in slots {
        var k :| 0 <= k < |slots| && slots[k] == s;
      }
      if exists k :: 0 <= k < KeySlots && s == SlotText(buf[KeysStart..], k) {
        var k :| 0 <= k < KeySlots && s == SlotText(buf[KeysStart..], k);
        assert slots[k] == s;
      }
    }
  }

  /** A text field of `n` bytes: the ASCII text followed by NUL padding. */
  function PadText(s: string, n: nat): (bs: seq<Byte>)
    requires IsAsciiText(s) && |s| <= n
    ensures |bs| == n && IsAscii(bs)
  {
    AsciiBytes(s) + Zeros(n - |s|)
  }

  /** The key slots holding `keys`, one 10-byte slot each. */
  function KeyBlock(keys: seq<string>): (bs: seq<Byte>)
    requires forall i :: 0 <= i < |keys| ==> IsKeyText(keys[i])
    ensures |bs| == KeyLen * |keys| && IsAscii(bs)
  {
    if |keys| == 0 then []
    else
      assert IsKeyText(keys[0]);
      PadText(keys[0], KeyLen) + KeyBlock(keys[1..])
  }

  /** The presentation frame a mote sends for `info`. */
  function EncodeHeader(info: FrameInfo): (bs: seq<Byte>)
    requires Representable(info)
    ensures |bs| == HeaderSize
  {
    [info.frameSize, info.lenChunks] + PadText(info.format, FormatLen)
      + KeyBlock(info.keys) + Zeros(KeyLen * (KeySlots - |info.keys|))
  }

  lemma PadTextStrips(s: string, n: nat)
    requires IsAsciiText(s) && |s| <= n && NoTrailingNul(s)
    ensures RStripNul(AsciiText(PadText(s, n))) == s
  {
    assert AsciiText(PadText(s, n)) == s + seq(n - |s|, _ => '\0');
    RStripNulPadded(s, n - |s|);
  }

  lemma {:induction false} KeyBlockSlot(keys: seq<string>, k: nat)
    requires forall i :: 0 <= i < |keys| ==> IsKeyText(keys[i])
    requires k < |keys|
    ensures KeyBlock(keys)[KeyLen * k..KeyLen * k + KeyLen] == PadText(keys[k], KeyLen)
  {
    var head := PadText(keys[0], KeyLen);
    var tail := KeyBlock(keys[1..]);
    assert KeyBlock(keys) == head + tail;
    if k > 0 {
      KeyBlockSlot(keys[1..], k - 1);
      assert (head + tail)[KeyLen * k..KeyLen * k + KeyLen] == tail[KeyLen * (k - 1)..KeyLen * (k - 1) + KeyLen];
    }
  }

  lemma {:induction false} NonEmptyPadded(keys: seq<string>, ss: seq<string>)
    requires |keys| <= |ss|
    requires forall i :: 0 <= i < |keys| ==> ss[i] == keys[i] && keys[i] != []
    requires forall i :: |keys| <= i < |ss| ==> ss[i] == []
    ensures NonEmpty(ss) == keys
    decreases |ss|
  {
    if |ss| > 0 {
      if |keys| > 0 {
        NonEmptyPadded(keys[1..], ss[1..]);
        assert [keys[0]] + keys[1..] == keys;
      } else {
        NonEmptyPadded(keys, ss[1..]);
      }
    }
  }

  /** Round trip: every descriptor a presentation frame can carry is decoded
      back from its encoding. */
  lemma DecodeEncodeHeader(info: FrameInfo)
    requires Representable(info)
    ensures DecodeHeader(EncodeHeader(info)) == Ok(info)
  {
    var buf := EncodeHeader(info);
    HeaderFields(info);
    PadTextStrips(info.format, FormatLen);
    HeaderKeys(info);
    assert RStripNul(AsciiText(buf[FormatStart..KeysStart])) == info.format;
    assert NonEmpty(Slots(buf[KeysStart..])) == info.keys;
  }

  /** Where the fields of `info` sit in its presentation frame. */
  lemma HeaderFields(info: FrameInfo)
    requires Representable(info)
    ensures var buf := EncodeHeader(info);
      && buf[0] == info.frameSize && buf[1] == info.lenChunks
      && buf[FormatStart..KeysStart] == PadText(info.format, FormatLen)
      && buf[KeysStart..] == KeyBlock(info.keys) + Zeros(KeyLen * (KeySlots - |info.keys|))
  {
  }

  /** The key region of the frame for `info` is text and yields its keys. */
  lemma HeaderKeys(info: FrameInfo)
    requires Representable(info)
    ensures var region := KeyBlock(info.keys) + Zeros(KeyLen * (KeySlots - |info.keys|));
      && |region| == KeyLen * KeySlots && IsAscii(region) && NonEmpty(Slots(region)) == info.keys
  {
    var block := KeyBlock(info.keys);
    var zeros := Zeros(KeyLen * (KeySlots - |info.keys|));
    var region := block + zeros;
    ZerosAscii(|zeros|);
    AsciiConcat(block, zeros);
    forall k | 0 <= k < |info.keys|
      ensures region[KeyLen * k..KeyLen * k + KeyLen] == PadText(info.keys[k], KeyLen)
    {
      KeyBlockSlot(info.keys, k);
      SliceOfPrefix(block, zeros, KeyLen * k, KeyLen * k + KeyLen);
    }
    SlotsOfRegion(region, info.keys);
  }

  /** A key region holding `keys` in its first slots and NULs after them
      decodes to exactly `keys`. */
  lemma SlotsOfRegion(region: seq<Byte>, keys: seq<string>)
    requires |region| == KeyLen * KeySlots && IsAscii(region)
    requires |keys| <= KeySlots
    requires forall k :: 0 <= k < |keys| ==>
      IsKeyText(keys[k]) && region[KeyLen * k..KeyLen * k + KeyLen] == PadText(keys[k], KeyLen)
    requires forall i :: KeyLen * |keys| <= i < |region| ==> region[i] == 0
    ensures NonEmpty(Slots(region)) == keys
  {
    var slots := Slots(region);
    forall k | 0 <= k < KeySlots
      ensures k < |keys| ==> slots[k] == keys[k]
      ensures k >= |keys| ==> slots[k] == []
    {
      if k < |keys| {
        SlotOfPadText(region, k, keys[k]);
      } else {
        SlotOfZeros(region, k);
      }
    }
    NonEmptyPadded(keys, slots);
  }

  lemma SlotOfPadText(region: seq<Byte>, k: nat, key: string)
    requires |region| == KeyLen * KeySlots && IsAscii(region) && k < KeySlots
    requires IsKeyText(key)
    requires region[KeyLen * k..KeyLen * k + KeyLen] == PadText(key, KeyLen)
    ensures SlotText(region, k) == key
  {
    PadTextStrips(key, KeyLen);
  }

  lemma SlotOfZeros(region: seq<Byte>, k: nat)
    requires |region| == KeyLen * KeySlots && IsAscii(region) && k < KeySlots
    requires forall i :: KeyLen * k <= i < KeyLen * k + KeyLen ==> region[i] == 0
    ensures SlotText(region, k) == []
  {
    var t := AsciiText(region[KeyLen * k..KeyLen * k + KeyLen]);
    assert forall i :: 0 <= i < |t| ==> t[i] == '\0';
    RStripNulAllNul(t);
  }
}

=== FILE: master.dfy ===
/** The pure part of shimmer_listener/_master.py: the table of known mote
    applications, the application check of `_master_init`, the device-name
    filter, the discovery loop's cycle structure and `_master_close`. */
module Master {
  import opened Results
  import opened Bytes
  import opened StructCodec
  import opened FrameCodec
  import opened DataFrames

  /** `_current_app` (declared without a value, so absent until
      `_master_init` succeeds) and `_discovering` (initially true). */
  datatype MasterState = MasterState(currentApp: Option<string>, discovering: bool)

  const InitialMaster: MasterState := MasterState(None, true)

  /** `_apps`: the one built-in application and its frame descriptor. */
  const SimpleAccel: FrameInfo := FrameInfo(120, 8, "hhhh", ["accel_x", "accel_y", "accel_z", "rawbatt"])
  const Apps: map<string, FrameInfo> := map["simple_accel" := SimpleAccel]

  /** The `ValueError` of `_master_init`. */
  datatype MasterError = InvalidApp

  /** `_master_init(node_app)`: accept only a name present in `_apps`. */
  function MasterInit(st: MasterState, nodeApp: Option<string>): (r: Result<MasterState, MasterError>)
    ensures r.Ok? <==> nodeApp.Some? && nodeApp.value in Apps
    ensures r.Ok? ==> r.value.currentApp == nodeApp && r.value.discovering == st.discovering
    ensures r.Ok? ==> r.value.currentApp.value in Apps
  {
    match nodeApp
    case None => Err(InvalidApp)
    case Some(name) => if name in Apps then Ok(MasterState(Some(name), st.discovering)) else Err(InvalidApp)
  }

  /** Only "simple_accel" is accepted, and a failed call has no effect to undo. */
  lemma MasterInitAccepts(st: MasterState, name: string)
    ensures MasterInit(st, Some(name)).Ok? <==> name == "simple_accel"
    ensures MasterInit(st, None) == Err(InvalidApp)
  {
  }

  /** After a successful `_master_init`, the descriptor `_apps[_current_app]`
      that a connection would hand to its stream is the built-in one, and
      it is consistent. */
  lemma MasterInitDescriptor(st: MasterState, nodeApp: Option<string>)
    requires MasterInit(st, nodeApp).Ok?
    ensures var app := MasterInit(st, nodeApp).value.currentApp.value;
      app in Apps && Apps[app] == SimpleAccel && WellFormed(Apps[app])
  {
    SimpleAccelWellFormed();
  }

  /** The built-in descriptor is consistent: 120 is a multiple of 8, "hhhh"
      packs into 8 bytes and names one key per field; it also fits in a
      presentation frame. */
  lemma SimpleAccelWellFormed()
    ensures WellFormed(SimpleAccel)
  {
    var codes := [I16, I16, I16, I16];
    FormatHhhh();
    EndFromWords(codes, 0, 4);
  }

  /** Each frame of the built-in application carries 15 chunks. */
  lemma SimpleAccelChunks()
    ensures |RangeFrom(0, SimpleAccel.frameSize, SimpleAccel.lenChunks)| == 15
  {
    ChunkCount(120, 8);
  }

  lemma SimpleAccelRepresentable()
    ensures Representable(SimpleAccel)
  {
    var keys := SimpleAccel.keys;
    assert forall i :: 0 <= i < |keys| ==> IsKeyText(keys[i]) by {
      assert IsKeyText("accel_x") && IsKeyText("accel_y") && IsKeyText("accel_z") && IsKeyText("rawbatt");
    }
  }

  /** `_is_shimmer_device(bt_id)`: the name starts with "RN42". */
  function IsShimmerDevice(name: string): (b: bool)
    ensures b <==> |name| >= 4 && name[..4] == "RN42"
  {
    "RN42" <= name
  }

  lemma ShimmerNames()
    ensures IsShimmerDevice("RN42") && IsShimmerDevice("RN42-7F3A")
    ensures !IsShimmerDevice("RN4") && !IsShimmerDevice("rn42-7F3A") && !IsShimmerDevice("XRN42")
  {
    assert "RN42-7F3A"[..4] == "RN42";
    assert "rn42-7F3A"[..4] != "RN42" by { assert "rn42-7F3A"[0] != "RN42"[0]; }
    assert "XRN42"[..4] != "RN42" by { assert "XRN42"[0] != "RN42"[0]; }
  }

  /** One result of `discover_devices(lookup_names=True)`: address and name. */
  datatype Device = Device(mac: string, name: string)

  /** The devices one discovery cycle tries to connect to. */
  function Candidates(found: seq<Device>): (c: seq<Device>)
    ensures |c| <= |found|
  {
    if |found| == 0 then []
    else (if IsShimmerDevice(found[0].name) then [found[0]] else []) + Candidates(found[1..])
  }

  /** A device is tried exactly when it was found and its name passes the filter. */
  lemma {:induction false} CandidatesMembers(found: seq<Device>)
    ensures forall d :: d in Candidates(found) <==> d in found && IsShimmerDevice(d.name)
  {
    if |found| > 0 {
      CandidatesMembers(found[1..]);
      assert found == [found[0]] + found[1..];
    }
  }

  /** The filter keeps scan order: the candidates of two consecutive scan
      results are those of the first followed by those of the second. */
  lemma {:induction false} CandidatesAppend(a: seq<Device>, b: seq<Device>)
    ensures Candidates(a + b) == Candidates(a) + Candidates(b)
  {
    if |a| == 0 {
      assert a + b == b;
    } else {
      var ab := a + b;
      assert ab[0] == a[0] && ab[1..] == a[1..] + b;
      var h: seq<Device> := if IsShimmerDevice(a[0].name) then [a[0]] else [];
      assert Candidates(ab) == h + Candidates(a[1..] + b);
      assert Candidates(a) == h + Candidates(a[1..]);
      CandidatesAppend(a[1..], b);
      assert h + (Candidates(a[1..]) + Candidates(b)) == (h + Candidates(a[1..])) + Candidates(b);
    }
  }

  /** A scan in which every device passes is tried whole, in order; one in
      which none passes yields nothing. */
  lemma {:induction false} CandidatesAllOrNone(found: seq<Device>)
    ensures (forall k :: 0 <= k < |found| ==> IsShimmerDevice(found[k].name)) ==> Candidates(found) == found
    ensures (forall k :: 0 <= k < |found| ==> !IsShimmerDevice(found[k].name)) ==> Candidates(found) == []
  {
    if |found| > 0 {
      CandidatesAllOrNone(found[1..]);
    }
  }

  /** One turn of the `while _discovering` loop: the devices it found, and
      whether `_master_close` was called while it ran. */
  datatype Cycle = Cycle(found: seq<Device>, closedDuring: bool)

  /** The state after the loop, the connection attempts in order, and how
      many cycles ran. */
  datatype ListenRun = ListenRun(st: MasterState, attempts: seq<Device>, cycles: nat)

  /** `_master_close`: clear `_discovering`. */
  function MasterClose(st: MasterState): (r: MasterState)
    ensures !r.discovering && r.currentApp == st.currentApp
  {
    st.(discovering := false)
  }

  /** `_master_listen`: the flag is read only at the top of each cycle. */
  function MasterListen(st: MasterState, cycles: seq<Cycle>): (r: ListenRun)
    ensures r.cycles <= |cycles|
    ensures r.st.currentApp == st.currentApp
    ensures !st.discovering ==> r == ListenRun(st, [], 0)
    ensures forall d :: d in r.attempts ==> IsShimmerDevice(d.name)
    decreases |cycles|
  {
    if !st.discovering || |cycles| == 0 then ListenRun(st, [], 0)
    else
      var c := cycles[0];
      var st1 := if c.closedDuring then MasterClose(st) else st;
      var rest := MasterListen(st1, cycles[1..]);
      CandidatesMembers(c.found);
      ListenRun(rest.st, Candidates(c.found) + rest.attempts, rest.cycles + 1)
  }

  /** A close during a cycle lets that cycle finish its connection attempts
      and then ends the loop. */
  lemma CloseFinishesCycle(st: MasterState, cycles: seq<Cycle>)
    requires st.discovering && |cycles| > 0 && cycles[0].closedDuring
    ensures MasterListen(st, cycles) == ListenRun(MasterClose(st), Candidates(cycles[0].found), 1)
  {
  }

  /** Without a close the loop runs every cycle and tries exactly the
      candidates of all of them, in order. */
  lemma {:induction false} ListenAllCycles(st: MasterState, cycles: seq<Cycle>)
    requires st.discovering
    requires forall k :: 0 <= k < |cycles| ==> !cycles[k].closedDuring
    ensures MasterListen(st, cycles).cycles == |cycles|
    ensures MasterListen(st, cycles).attempts == Candidates(AllFound(cycles))
  {
    if |cycles| > 0 {
      ListenAllCycles(st, cycles[1..]);
      assert AllFound(cycles) == cycles[0].found + AllFound(cycles[1..]);
      CandidatesAppend(cycles[0].found, AllFound(cycles[1..]));
    }
  }

  /** Every device the cycles found, in order. */
  function AllFound(cycles: seq<Cycle>): seq<Device>
  {
    if |cycles| == 0 then [] else cycles[0].found + AllFound(cycles[1..])
  }
}

=== FILE: receive.dfy ===
/** The receive loops of shimmer_listener/_streams.py: `recv` is called until
    at least `n` bytes have been gathered. What the transport delivers and
    what other threads do to the stream are one ordered sequence of events. */
module Receive {
  import opened Bytes

  /** `recv` returns a block, `recv` raises `BluetoothError`, or another
      thread calls `stop` on the stream. */
  datatype Event = Recv(block: seq<Byte>) | LinkDown | StopCall

  /** How an accumulate loop ended: it holds `n` bytes, `recv` raised, or
      the events ran out while it was still waiting. */
  datatype AccStatus = Filled | Down | Exhausted

  /** The gathered bytes, how many events the loop consumed, how it ended,
      and whether a `stop` call fell inside it. */
  datatype Acc = Acc(buf: seq<Byte>, used: nat, status: AccStatus, stopped: bool)

  /** The bytes the `Recv` events of `evs` deliver, in order. */
  function Received(evs: seq<Event>): (bs: seq<Byte>)
  {
    if |evs| == 0 then []
    else (if evs[0].Recv? then evs[0].block else []) + Received(evs[1..])
  }

  lemma ReceivedCons(evs: seq<Event>, j: nat)
    requires 1 <= j <= |evs|
    ensures Received(evs[..j]) == (if evs[0].Recv? then evs[0].block else []) + Received(evs[1..][..j - 1])
  {
    assert evs[..j][1..] == evs[1..][..j - 1];
  }

  lemma StopInCons(evs: seq<Event>, j: nat)
    requires 1 <= j <= |evs|
    ensures StopCall in evs[..j] <==> evs[0] == StopCall || StopCall in evs[1..][..j - 1]
  {
    assert evs[..j] == [evs[0]] + evs[1..][..j - 1];
  }

  /** The loop `while len(buf) < n: buf += recv(n)` started on `buf`. */
  function AccFrom(evs: seq<Event>, n: nat, buf: seq<Byte>, stopped: bool): (a: Acc)
    ensures a.used <= |evs|
    ensures a.buf == buf + Received(evs[..a.used])
    ensures a.stopped <==> stopped || StopCall in evs[..a.used]
    ensures a.status == Filled <==> |a.buf| >= n
    ensures a.status == Down ==> a.used > 0 && evs[a.used - 1] == LinkDown
    ensures a.status == Exhausted ==> a.used == |evs|
    decreases |evs|
  {
    if |buf| >= n then Acc(buf, 0, Filled, stopped)
    else if |evs| == 0 then Acc(buf, 0, Exhausted, stopped)
    else
      match evs[0]
      case LinkDown =>
        assert evs[..1] == [LinkDown];
        Acc(buf, 1, Down, stopped)
      case StopCall =>
        var a := AccFrom(evs[1..], n, buf, true);
        AccStep(evs, buf, stopped, a);
        a.(used := a.used + 1)
      case Recv(b) =>
        var a := AccFrom(evs[1..], n, buf + b, stopped);
        AccStep(evs, buf, stopped, a);
        a.(used := a.used + 1)
  }

  /** The bytes and the stop calls of one consumed event. */
  lemma AccStep(evs: seq<Event>, buf: seq<Byte>, stopped: bool, a: Acc)
    requires |evs| > 0 && a.used < |evs|
    requires a.buf == (buf + if evs[0].Recv? then evs[0].block else []) + Received(evs[1..][..a.used])
    requires a.stopped <==> (stopped || evs[0] == StopCall) || StopCall in evs[1..][..a.used]
    ensures a.buf == buf + Received(evs[..a.used + 1])
    ensures a.stopped <==> stopped || StopCall in evs[..a.used + 1]
  {
    ReceivedCons(evs, a.used + 1);
    StopInCons(evs, a.used + 1);
  }

  /** The loop stops at the first moment it holds `n` bytes, and a
      `BluetoothError` can only be the last event it consumes. */
  lemma {:induction false} AccFromMinimal(evs: seq<Event>, n: nat, buf: seq<Byte>, stopped: bool)
    ensures var a := AccFrom(evs, n, buf, stopped);
      && (forall j :: 0 <= j < a.used ==> |buf + Received(evs[..j])| < n)
      && (forall j :: 0 <= j < a.used && evs[j] == LinkDown ==> a.status == Down && j == a.used - 1)
    decreases |evs|
  {
    if |buf| < n && |evs| > 0 && evs[0] != LinkDown {
      var head: seq<Byte> := if evs[0].Recv? then evs[0].block else [];
      var st := stopped || evs[0] == StopCall;
      var a := AccFrom(evs[1..], n, buf + head, st);
      AccFromMinimal(evs[1..], n, buf + head, st);
      if evs[0] == StopCall {
        assert buf + head == buf;
      }
      assert AccFrom(evs, n, buf, stopped) == a.(used := a.used + 1);
      MinimalStep(evs, n, buf, a);
    }
  }

  lemma MinimalStep(evs: seq<Event>, n: nat, buf: seq<Byte>, a: Acc)
    requires |evs| > 0 && |buf| < n && evs[0] != LinkDown && a.used < |evs|
    requires forall j :: 0 <= j < a.used ==>
      |(buf + if evs[0].Recv? then evs[0].block else []) + Received(evs[1..][..j])| < n
    requires forall j :: 0 <= j < a.used && evs[1..][j] == LinkDown ==> a.status == Down && j == a.used - 1
    ensures forall j :: 0 <= j < a.used + 1 ==> |buf + Received(evs[..j])| < n
    ensures forall j :: 0 <= j < a.used + 1 && evs[j] == LinkDown ==> a.status == Down && j == a.used
  {
    var head: seq<Byte> := if evs[0].Recv? then evs[0].block else [];
    forall j | 0 <= j < a.used + 1
      ensures |buf + Received(evs[..j])| < n
    {
      if j > 0 {
        ReceivedCons(evs, j);
        assert buf + Received(evs[..j]) == (buf + head) + Received(evs[1..][..j - 1]);
      }
    }
    forall j | 0 <= j < a.used + 1 && evs[j] == LinkDown
      ensures a.status == Down && j == a.used
    {
      assert j > 0 && evs[1..][j - 1] == evs[j];
    }
  }

  /** `recv` until at least `n` bytes have arrived, from an empty buffer. */
  function Accumulate(evs: seq<Event>, n: nat): (a: Acc)
    ensures a.used <= |evs|
    ensures a.buf == Received(evs[..a.used])
    ensures a.stopped <==> StopCall in evs[..a.used]
    ensures a.status == Filled <==> |a.buf| >= n
    ensures a.status == Down ==> a.used > 0 && evs[a.used - 1] == LinkDown
    ensures a.status == Exhausted ==> a.used == |evs|
    ensures n > 0 && a.status == Filled ==> a.used > 0
  {
    var a := AccFrom(evs, n, [], false);
    assert evs[..0] == [];
    a
  }

  /** The loop stops as soon as it holds `n` bytes, and a `BluetoothError`
      can only be the last event it consumes. */
  lemma AccumulateMinimal(evs: seq<Event>, n: nat)
    ensures var a := Accumulate(evs, n);
      && (forall j :: 0 <= j < a.used ==> |Received(evs[..j])| < n)
      && (forall j :: 0 <= j < a.used && evs[j] == LinkDown ==> a.status == Down && j == a.used - 1)
  {
    var a := AccFrom(evs, n, [], false);
    AccFromMinimal(evs, n, [], false);
    assert forall j :: 0 <= j < a.used ==> [] + Received(evs[..j]) == Received(evs[..j]);
  }

  /** What a finished receive loop over `evs` must look like. */
  predicate AccSpec(evs: seq<Event>, n: nat, a: Acc)
  {
    && a.used <= |evs|
    && a.buf == Received(evs[..a.used])
    && (a.stopped <==> StopCall in evs[..a.used])
    && (a.status == Filled <==> |a.buf| >= n)
    && (a.status == Down ==> a.used > 0 && evs[a.used - 1] == LinkDown)
    && (a.status == Exhausted ==> a.used == |evs|)
    && (forall j :: 0 <= j < a.used ==> |Received(evs[..j])| < n)
    && (forall j :: 0 <= j < a.used && evs[j] == LinkDown ==> a.status == Down && j == a.used - 1)
  }

  /** The receive loop's contract determines its result: `Accumulate` is
      the only outcome it allows. */
  lemma AccumulateUnique(evs: seq<Event>, n: nat, a: Acc)
    requires AccSpec(evs, n, a)
    ensures a == Accumulate(evs, n)
  {
    var b := Accumulate(evs, n);
    AccumulateMinimal(evs, n);
    assert AccSpec(evs, n, b);
    UsedBelow(evs, n, a, b);
    UsedBelow(evs, n, b, a);
  }

  lemma UsedBelow(evs: seq<Event>, n: nat, a: Acc, b: Acc)
    requires AccSpec(evs, n, a) && AccSpec(evs, n, b)
    ensures a.used <= b.used
  {
  }

  /** A first block of at least `n` bytes fills the buffer at once; any
      surplus stays in it. */
  lemma AccumulateOneBlock(evs: seq<Event>, n: nat)
    requires |evs| > 0 && evs[0].Recv? && |evs[0].block| >= n > 0
    ensures Accumulate(evs, n) == Acc(evs[0].block, 1, Filled, false)
  {
    var a := Acc(evs[0].block, 1, Filled, false);
    assert evs[..1] == [evs[0]] && evs[..0] == [];
    assert Received(evs[..1]) == evs[0].block + Received([]);
    AccumulateUnique(evs, n, a);
  }

  /** A `BluetoothError` before any byte ends the loop with nothing gathered. */
  lemma AccumulateLinkDown(evs: seq<Event>, n: nat)
    requires |evs| > 0 && evs[0] == LinkDown && n > 0
    ensures Accumulate(evs, n) == Acc([], 1, Down, false)
  {
    var a := Acc([], 1, Down, false);
    assert evs[..1] == [LinkDown] && evs[..0] == [];
    assert Received(evs[..1]) == [] + Received([]);
    AccumulateUnique(evs, n, a);
  }

  /** A frame that arrives in two parts with a `stop` call between them is
      still gathered whole. */
  lemma AccumulateSplit(p1: seq<Byte>, p2: seq<Byte>, more: seq<Event>, n: nat)
    requires |p1| < n <= |p1| + |p2|
    ensures Accumulate([Recv(p1), StopCall, Recv(p2)] + more, n) == Acc(p1 + p2, 3, Filled, true)
  {
    var evs := [Recv(p1), StopCall, Recv(p2)] + more;
    var a := Acc(p1 + p2, 3, Filled, true);
    assert evs[..3] == [Recv(p1), StopCall, Recv(p2)];
    assert evs[..2] == [Recv(p1), StopCall];
    assert evs[..1] == [Recv(p1)] && evs[..0] == [];
    assert evs[..3][1..] == evs[..2][1..] + [Recv(p2)];
    assert Received(evs[..1]) == p1 + Received([]);
    assert Received(evs[..2]) == p1 + Received([StopCall]);
    assert Received([StopCall]) == [] + Received([]);
    assert Received(evs[..3]) == p1 + Received([StopCall, Recv(p2)]);
    assert [StopCall, Recv(p2)][1..] == [Recv(p2)];
    assert Received([StopCall, Recv(p2)]) == [] + Received([Recv(p2)]);
    assert Received([Recv(p2)]) == p2 + Received([]);
    AccumulateUnique(evs, n, a);
  }

  /** Number of `stop` calls at the head of `evs`: the ones that happen
      before the stream's thread next tests `_running`. */
  function LeadingStops(evs: seq<Event>): (k: nat)
    ensures k <= |evs|
    ensures forall j :: 0 <= j < k ==> evs[j] == StopCall
    ensures k == |evs| || evs[k] != StopCall
  {
    if |evs| == 0 || evs[0] != StopCall then 0 else 1 + LeadingStops(evs[1..])
  }
}

=== FILE: registry.dfy ===
/** The stream registry of shimmer_listener/_streams.py: every `BtStream` is
    appended to the module list `_open_conn` when it is constructed, its
    `_running` flag is the `open` property, `stop` clears the flag and removes
    the stream from the list, and `close_streams` stops the open streams.
    Streams are identified by their position in `World.streams`. `Stop`
    treats the test of `_running` and the removal from the list as one step;
    the source takes the mutex only around the removal, and `Unlist` with
    `OverlappingStopsRaise` shows what two overlapping calls do. */
module Registry {
  import opened Results

  /** One `BtStream`: the mote's MAC address, whether its thread has begun
      `run` (a thread runs at most once), and `_running`. */
  datatype Stream = Stream(mac: string, started: bool, running: bool)

  /** Every stream constructed so far, and `_open_conn` as a list of stream ids. */
  datatype World = World(streams: seq<Stream>, openConn: seq<nat>)

  /** `list.remove` raises ValueError when the element is absent. */
  datatype RegistryError = NotRegistered

  /** The registry when the module is imported. */
  const Initial: World := World([], [])

  predicate Distinct(xs: seq<nat>)
  {
    forall i, j :: 0 <= i < j < |xs| ==> xs[i] != xs[j]
  }

  /** What every reachable registry satisfies: the list names known streams,
      each at most once; a running stream is listed; a stream whose thread has
      not begun is listed and not running. */
  predicate Valid(w: World)
  {
    && (forall i :: 0 <= i < |w.openConn| ==> w.openConn[i] < |w.streams|)
    && Distinct(w.openConn)
    && (forall id :: 0 <= id < |w.streams| && w.streams[id].running ==> id in w.openConn)
    && (forall id :: 0 <= id < |w.streams| && !w.streams[id].started ==>
          id in w.openConn && !w.streams[id].running)
  }

  lemma InitialValid()
    ensures Valid(Initial)
  {
  }

  /** The `open` property. */
  function IsOpen(w: World, id: nat): bool
    requires id < |w.streams|
  {
    w.streams[id].running
  }

  /** `BtStream.__init__`: a new stream, not running, appended to `_open_conn`. */
  function Register(w: World, mac: string): (r: World)
    ensures |r.streams| == |w.streams| + 1 && r.streams[..|w.streams|] == w.streams
    ensures !IsOpen(r, |w.streams|) && r.streams[|w.streams|].mac == mac
    ensures r.openConn == w.openConn + [|w.streams|]
  {
    World(w.streams + [Stream(mac, false, false)], w.openConn + [|w.streams|])
  }

  /** The first statement of `run`: `self._running = True`. */
  function Start(w: World, id: nat): (r: World)
    requires id < |w.streams| && !w.streams[id].started
    ensures |r.streams| == |w.streams| && IsOpen(r, id) && r.streams[id].started
    ensures r.streams[id].mac == w.streams[id].mac
    ensures forall j :: 0 <= j < |w.streams| && j != id ==> r.streams[j] == w.streams[j]
    ensures r.openConn == w.openConn
  {
    World(w.streams[id := Stream(w.streams[id].mac, true, true)], w.openConn)
  }

  /** Position of the first occurrence of `x`. */
  function IndexOf(xs: seq<nat>, x: nat): (i: nat)
    requires x in xs
    ensures i < |xs| && xs[i] == x
    ensures forall j :: 0 <= j < i ==> xs[j] != x
  {
    if xs[0] == x then 0 else 1 + IndexOf(xs[1..], x)
  }

  /** `list.remove(x)`: drop the first occurrence of `x`, or fail when there is none. */
  function RemoveFirst(xs: seq<nat>, x: nat): (r: Option<seq<nat>>)
    ensures r.None? <==> x !in xs
    ensures r.Some? ==> r.value == xs[..IndexOf(xs, x)] + xs[IndexOf(xs, x) + 1..]
  {
    if x in xs then Some(xs[..IndexOf(xs, x)] + xs[IndexOf(xs, x) + 1..]) else None
  }

  /** In a list without duplicates, removing `x` keeps every other element,
      in order, and leaves no `x` behind. */
  lemma RemoveFirstDistinct(xs: seq<nat>, x: nat)
    requires Distinct(xs) && x in xs
    ensures var r := RemoveFirst(xs, x).value;
      && |r| == |xs| - 1 && Distinct(r) && x !in r
      && forall y :: y in r <==> y in xs && y != x
  {
    var i := IndexOf(xs, x);
    var r := RemoveFirst(xs, x).value;
    assert forall k :: 0 <= k < |r| ==> r[k] == (if k < i then xs[k] else xs[k + 1]);
    forall y | y in xs && y != x
      ensures y in r
    {
      var k :| 0 <= k < |xs| && xs[k] == y;
      assert r[if k < i then k else k - 1] == y;
    }
  }

  /** `BtStream.stop`: when running, clear `_running` and remove the stream
      from `_open_conn`; otherwise do nothing. */
  function Stop(w: World, id: nat): (r: Result<World, RegistryError>)
    requires id < |w.streams|
    ensures !IsOpen(w, id) ==> r == Ok(w)
    ensures r.Err? <==> IsOpen(w, id) && id !in w.openConn
    ensures r.Ok? && IsOpen(w, id) ==>
      && |r.value.streams| == |w.streams|
      && !IsOpen(r.value, id) && r.value.streams[id].mac == w.streams[id].mac
      && r.value.streams[id].started == w.streams[id].started
      && (forall j :: 0 <= j < |w.streams| && j != id ==> r.value.streams[j] == w.streams[j])
      && Some(r.value.openConn) == RemoveFirst(w.openConn, id)
  {
    if !w.streams[id].running then Ok(w)
    else match RemoveFirst(w.openConn, id)
      case None => Err(NotRegistered)
      case Some(rest) =>
        var s := w.streams[id];
        Ok(World(w.streams[id := Stream(s.mac, s.started, false)], rest))
  }

  /** The except branch for a bad presentation frame: `self._running = False`
      without touching `_open_conn`. */
  function ClearRunning(w: World, id: nat): (r: World)
    requires id < |w.streams|
    ensures |r.streams| == |w.streams| && !IsOpen(r, id)
    ensures r.streams[id].mac == w.streams[id].mac && r.streams[id].started == w.streams[id].started
    ensures forall j :: 0 <= j < |w.streams| && j != id ==> r.streams[j] == w.streams[j]
    ensures r.openConn == w.openConn
  {
    var s := w.streams[id];
    World(w.streams[id := Stream(s.mac, s.started, false)], w.openConn)
  }

  /** The part of `stop` under the mutex: `_open_conn.remove(self)`, which
      raises ValueError when the stream is no longer listed. */
  function Unlist(w: World, id: nat): (r: Result<World, RegistryError>)
    ensures r.Err? <==> id !in w.openConn
    ensures r.Ok? ==> r.value.streams == w.streams && Some(r.value.openConn) == RemoveFirst(w.openConn, id)
  {
    match RemoveFirst(w.openConn, id)
    case None => Err(NotRegistered)
    case Some(rest) => Ok(w.(openConn := rest))
  }

  /** When `stop` calls do not overlap, the test and clear of `_running`
      followed by the removal under the mutex is exactly `Stop`. */
  lemma StopInTwoSteps(w: World, id: nat)
    requires id < |w.streams| && IsOpen(w, id)
    ensures Stop(w, id) == Unlist(ClearRunning(w, id), id)
  {
  }

  /** Two `stop` calls on one running stream that both read `_running` before
      either clears it: both go on to remove the stream, and the second
      removal raises ValueError. */
  lemma OverlappingStopsRaise(w: World, id: nat)
    requires Valid(w) && id < |w.streams| && IsOpen(w, id)
    ensures var cleared := ClearRunning(ClearRunning(w, id), id);
      && Unlist(cleared, id).Ok?
      && Unlist(Unlist(cleared, id).value, id) == Err(NotRegistered)
  {
    RemoveFirstDistinct(w.openConn, id);
  }

  lemma RegisterValid(w: World, mac: string)
    requires Valid(w)
    ensures Valid(Register(w, mac))
  {
    var r := Register(w, mac);
    forall id | 0 <= id < |r.streams| && (r.streams[id].running || !r.streams[id].started)
      ensures id in r.openConn
    {
      if id < |w.streams| {
        assert r.streams[id] == w.streams[id];
      } else {
        assert r.openConn[|w.openConn|] == id;
      }
    }
  }

  lemma StartValid(w: World, id: nat)
    requires Valid(w) && id < |w.streams| && !w.streams[id].started
    ensures Valid(Start(w, id))
  {
  }

  /** Under the invariant `stop` never raises, removes the stream exactly once
      and keeps the invariant. */
  lemma StopValid(w: World, id: nat)
    requires Valid(w) && id < |w.streams|
    ensures Stop(w, id).Ok?
    ensures Valid(Stop(w, id).value)
    ensures IsOpen(w, id) ==> id !in Stop(w, id).value.openConn
    ensures IsOpen(w, id) ==> |Stop(w, id).value.openConn| == |w.openConn| - 1
    ensures forall x :: x != id ==> (x in Stop(w, id).value.openConn <==> x in w.openConn)
  {
    if IsOpen(w, id) {
      RemoveFirstDistinct(w.openConn, id);
    }
  }

  /** A second `stop` changes nothing. */
  lemma StopIdempotent(w: World, id: nat)
    requires Valid(w) && id < |w.streams|
    ensures Stop(w, id).Ok? && Stop(Stop(w, id).value, id) == Stop(w, id)
  {
    StopValid(w, id);
  }

  lemma ClearRunningValid(w: World, id: nat)
    requires Valid(w) && id < |w.streams| && w.streams[id].started
    ensures Valid(ClearRunning(w, id))
  {
  }

  /** After a failed handshake the stream stays in `_open_conn` and a later
      `stop` cannot remove it. */
  lemma ClearedStreamStaysListed(w: World, id: nat)
    requires Valid(w) && id < |w.streams| && IsOpen(w, id)
    ensures id in ClearRunning(w, id).openConn
    ensures Stop(ClearRunning(w, id), id) == Ok(ClearRunning(w, id))
  {
  }

  /** The stream lifecycle: a new stream is not open; running it opens it;
      stopping it closes it and removes it from the list exactly once. */
  lemma Lifecycle(w: World, mac: string)
    requires Valid(w)
    ensures var id := |w.streams|;
      var w1 := Register(w, mac);
      var w2 := Start(w1, id);
      && !IsOpen(w1, id) && id in w1.openConn
      && IsOpen(w2, id)
      && Stop(w2, id).Ok? && !IsOpen(Stop(w2, id).value, id)
      && Stop(w2, id).value.openConn == w.openConn
  {
    var id := |w.streams|;
    var w1 := Register(w, mac);
    RegisterValid(w, mac);
    var w2 := Start(w1, id);
    assert id !in w.openConn;
    assert IndexOf(w2.openConn, id) == |w.openConn| by {
      assert w2.openConn[|w.openConn|] == id;
    }
    assert w2.openConn[..|w.openConn|] == w.openConn;
  }

  // ---- close_streams ----

  /** `close_streams`: stop every open stream met while walking the live list
      by position, a list that each `stop` shrinks under the walk. */
  function CloseFrom(w: World, i: nat): (r: World)
    requires Valid(w)
    ensures Valid(r) && |r.streams| == |w.streams|
    decreases |w.openConn| - i
  {
    if i >= |w.openConn| then w
    else
      var id := w.openConn[i];
      if !IsOpen(w, id) then CloseFrom(w, i + 1)
      else
        StopValid(w, id);
        CloseFrom(Stop(w, id).value, i + 1)
  }

  /** `close_streams()` as written. */
  function CloseStreams(w: World): (r: World)
    requires Valid(w)
    ensures Valid(r)
  {
    CloseFrom(w, 0)
  }

  /** Reference for the as-written loop over the list suffix `rest`: an open
      stream is stopped and the stream after it is skipped. */
  function Swept(w: World, rest: seq<nat>): (s: set<nat>)
    requires forall k :: 0 <= k < |rest| ==> rest[k] < |w.streams|
    ensures forall x :: x in s ==> x in rest && IsOpen(w, x)
  {
    if |rest| == 0 then {}
    else if !IsOpen(w, rest[0]) then Swept(w, rest[1..])
    else if |rest| == 1 then {rest[0]}
    else {rest[0]} + Swept(w, rest[2..])
  }

  /** The elements of `xs` not in `s`, in order. */
  function Without(xs: seq<nat>, s: set<nat>): (r: seq<nat>)
    ensures |r| <= |xs|
  {
    if |xs| == 0 then [] else (if xs[0] in s then [] else [xs[0]]) + Without(xs[1..], s)
  }

  /** The world after stopping exactly the streams in `s`. */
  predicate SweptTo(w: World, s: set<nat>, r: World)
  {
    && |r.streams| == |w.streams|
    && (forall id :: 0 <= id < |w.streams| ==>
          r.streams[id] == if id in s then w.streams[id].(running := false) else w.streams[id])
    && r.openConn == Without(w.openConn, s)
  }

  lemma {:induction false} WithoutAppend(a: seq<nat>, b: seq<nat>, s: set<nat>)
    ensures Without(a + b, s) == Without(a, s) + Without(b, s)
  {
    if |a| > 0 {
      WithoutAppend(a[1..], b, s);
      assert (a + b)[0] == a[0] && (a + b)[1..] == a[1..] + b;
    } else {
      assert a + b == b;
    }
  }

  lemma {:induction false} WithoutDisjoint(xs: seq<nat>, s: set<nat>)
    requires forall k :: 0 <= k < |xs| ==> xs[k] !in s
    ensures Without(xs, s) == xs
  {
    if |xs| > 0 {
      WithoutDisjoint(xs[1..], s);
    }
  }

  /** `close_streams` as written stops exactly the streams that `Swept` names. */
  lemma {:induction false} CloseFromSweeps(w: World, i: nat)
    requires Valid(w) && i <= |w.openConn|
    ensures SweptTo(w, Swept(w, w.openConn[i..]), CloseFrom(w, i))
    decreases |w.openConn| - i
  {
    var rest := w.openConn[i..];
    var s := Swept(w, rest);
    if i == |w.openConn| {
      WithoutDisjoint(w.openConn, s);
    } else if !IsOpen(w, rest[0]) {
      CloseFromSweeps(w, i + 1);
      assert rest[1..] == w.openConn[i + 1..];
    } else {
      var id := rest[0];
      StopValid(w, id);
      var w1 := Stop(w, id).value;
      StopAt(w, i);
      if i == |w.openConn| - 1 {
        SweptSingle(w, i);
      } else {
        CloseFromSweeps(w1, i + 1);
        assert w1.streams[id] == w.streams[id].(running := false);
        SweepStep(w, i, w1, CloseFrom(w1, i + 1));
      }
    }
  }

  /** Stopping the open stream at position `i` removes exactly that position. */
  lemma StopAt(w: World, i: nat)
    requires Valid(w) && i < |w.openConn| && IsOpen(w, w.openConn[i])
    ensures Stop(w, w.openConn[i]).Ok?
    ensures Stop(w, w.openConn[i]).value.openConn == w.openConn[..i] + w.openConn[i + 1..]
  {
    var id := w.openConn[i];
    assert IndexOf(w.openConn, id) == i;
  }

  lemma SweptSingle(w: World, i: nat)
    requires Valid(w) && i == |w.openConn| - 1 && IsOpen(w, w.openConn[i])
    ensures SweptTo(w, Swept(w, w.openConn[i..]), Stop(w, w.openConn[i]).value)
  {
    var id := w.openConn[i];
    StopAt(w, i);
    assert Swept(w, w.openConn[i..]) == {id};
    var s: set<nat> := {id};
    WithoutAppend(w.openConn[..i], [id], s);
    assert w.openConn == w.openConn[..i] + [id];
    WithoutDisjoint(w.openConn[..i], s);
  }

  /** One step of the as-written loop: stop the stream at `i`, skip the next. */
  lemma {:induction false} SweepStep(w: World, i: nat, w1: World, r: World)
    requires Distinct(w.openConn) && forall k :: 0 <= k < |w.openConn| ==> w.openConn[k] < |w.streams|
    requires i + 1 < |w.openConn| && IsOpen(w, w.openConn[i])
    requires |w1.streams| == |w.streams|
    requires w1.streams[w.openConn[i]] == w.streams[w.openConn[i]].(running := false)
    requires forall j :: 0 <= j < |w.streams| && j != w.openConn[i] ==> w1.streams[j] == w.streams[j]
    requires w1.openConn == w.openConn[..i] + w.openConn[i + 1..]
    requires SweptTo(w1, Swept(w1, w1.openConn[i + 1..]), r)
    ensures SweptTo(w, Swept(w, w.openConn[i..]), r)
  {
    var id := w.openConn[i];
    var s1 := Swept(w1, w1.openConn[i + 1..]);
    var S := Swept(w, w.openConn[i..]);
    SweepSets(w, i, w1);
    SweepList(w.openConn, i, w1.openConn, s1);
    SweptToCompose(w, w1, r, id, s1, S);
  }

  /** Stopping `id` and then the streams of `s1` stops the streams of `S`. */
  lemma {:induction false} SweptToCompose(w: World, w1: World, r: World, id: nat, s1: set<nat>, S: set<nat>)
    requires |w1.streams| == |w.streams| && id < |w.streams|
    requires w1.streams[id] == w.streams[id].(running := false)
    requires forall j :: 0 <= j < |w.streams| && j != id ==> w1.streams[j] == w.streams[j]
    requires forall x :: x in s1 ==> x != id
    requires S == {id} + s1
    requires SweptTo(w1, s1, r)
    requires Without(w1.openConn, s1) == Without(w.openConn, S)
    ensures SweptTo(w, S, r)
  {
    SweepStreams(w.streams, w1.streams, r.streams, id, s1);
  }

  /** The streams the reference sweeps from position `i` are the one stopped
      there and those swept after the skipped one, which lie past it. */
  lemma {:induction false} SweepSets(w: World, i: nat, w1: World)
    requires Distinct(w.openConn) && forall k :: 0 <= k < |w.openConn| ==> w.openConn[k] < |w.streams|
    requires i + 1 < |w.openConn| && IsOpen(w, w.openConn[i])
    requires |w1.streams| == |w.streams|
    requires forall j :: 0 <= j < |w.streams| && j != w.openConn[i] ==> w1.streams[j] == w.streams[j]
    requires w1.openConn == w.openConn[..i] + w.openConn[i + 1..]
    ensures Swept(w, w.openConn[i..]) == {w.openConn[i]} + Swept(w1, w1.openConn[i + 1..])
    ensures Swept(w1, w1.openConn[i + 1..]) == Swept(w, w.openConn[i + 2..])
  {
    var tail := w.openConn[i + 2..];
    assert w1.openConn[i + 1..] == tail;
    SweptUnchanged(w, w1, tail, w.openConn[i]);
    SweptHead(w, i);
  }

  /** Stopping `id` first and the streams of `s1` afterwards stops `{id} + s1`. */
  lemma SweepStreams(ws: seq<Stream>, w1s: seq<Stream>, rs: seq<Stream>, id: nat, s1: set<nat>)
    requires |w1s| == |ws| == |rs| && id < |ws|
    requires forall x :: x in s1 ==> x != id
    requires w1s[id] == ws[id].(running := false)
    requires forall j :: 0 <= j < |ws| && j != id ==> w1s[j] == ws[j]
    requires forall j :: 0 <= j < |ws| ==> rs[j] == if j in s1 then w1s[j].(running := false) else w1s[j]
    ensures forall j :: 0 <= j < |ws| ==>
      rs[j] == if j in {id} + s1 then ws[j].(running := false) else ws[j]
  {
  }

  /** At an open stream the reference stops it and skips the stream after it. */
  lemma SweptHead(w: World, i: nat)
    requires forall k :: 0 <= k < |w.openConn| ==> w.openConn[k] < |w.streams|
    requires i + 1 < |w.openConn| && IsOpen(w, w.openConn[i])
    ensures Swept(w, w.openConn[i..]) == {w.openConn[i]} + Swept(w, w.openConn[i + 2..])
  {
    assert w.openConn[i..][2..] == w.openConn[i + 2..];
  }

  /** The list after the step, without the later swept streams, is the list
      before it without the stream stopped here and those streams. */
  lemma SweepList(xs: seq<nat>, i: nat, ys: seq<nat>, s1: set<nat>)
    requires Distinct(xs) && i + 1 < |xs|
    requires ys == xs[..i] + xs[i + 1..]
    requires forall x :: x in s1 ==> x in xs[i + 2..]
    ensures Without(ys, s1) == Without(xs, {xs[i]} + s1)
    ensures forall x :: x in s1 ==> x != xs[i]
  {
    var pre := xs[..i];
    var tail := xs[i + 2..];
    SweptAfter(xs, i, s1);
    assert xs == pre + [xs[i]] + [xs[i + 1]] + tail;
    assert ys == pre + [xs[i + 1]] + tail;
    WithoutSkip(pre, xs[i], xs[i + 1], tail, s1);
  }

  /** The streams swept from the suffix starting at `i + 2` occur nowhere before it. */
  lemma SweptAfter(xs: seq<nat>, i: nat, s1: set<nat>)
    requires Distinct(xs) && i + 2 <= |xs|
    requires forall x :: x in s1 ==> x in xs[i + 2..]
    ensures forall k :: 0 <= k < i + 2 ==> xs[k] !in s1
  {
  }

  lemma WithoutSkip(pre: seq<nat>, id: nat, b: nat, tail: seq<nat>, s1: set<nat>)
    requires forall k :: 0 <= k < |pre| ==> pre[k] !in s1 && pre[k] != id
    requires b !in s1 && b != id && id !in s1 && id !in tail
    ensures Without(pre + [b] + tail, s1) == Without(pre + [id] + [b] + tail, {id} + s1)
  {
    var s := {id} + s1;
    var long := [id] + [b] + tail;
    var short := [b] + tail;
    assert pre + [id] + [b] + tail == pre + long;
    assert pre + [b] + tail == pre + short;
    WithoutAppend(pre, long, s);
    WithoutAppend(pre, short, s1);
    WithoutDisjoint(pre, s);
    WithoutDisjoint(pre, s1);
    assert long[1..] == short && short[1..] == tail;
    assert Without(long, s) == Without(short, s);
    assert Without(short, s) == [b] + Without(tail, s);
    assert Without(short, s1) == [b] + Without(tail, s1);
    WithoutSubset(tail, s1, s, id);
  }

  lemma {:induction false} WithoutSubset(tail: seq<nat>, s1: set<nat>, s: set<nat>, id: nat)
    requires s == {id} + s1 && id !in tail
    ensures Without(tail, s) == Without(tail, s1)
  {
    if |tail| > 0 {
      WithoutSubset(tail[1..], s1, s, id);
    }
  }

  /** Stopping one stream does not change which later streams are swept. */
  lemma {:induction false} SweptUnchanged(w: World, w1: World, rest: seq<nat>, id: nat)
    requires |w1.streams| == |w.streams| && id < |w.streams|
    requires forall j :: 0 <= j < |w.streams| && j != id ==> w1.streams[j] == w.streams[j]
    requires forall k :: 0 <= k < |rest| ==> rest[k] < |w.streams| && rest[k] != id
    ensures Swept(w1, rest) == Swept(w, rest)
  {
    if |rest| > 0 {
      SweptUnchanged(w, w1, rest[1..], id);
      if |rest| > 1 {
        SweptUnchanged(w, w1, rest[2..], id);
      }
    }
  }

  /** Finding: with two open streams, `close_streams` as written leaves the
      second one open. */
  lemma CloseStreamsSkipsSecond()
    ensures var w := World([Stream("a", true, true), Stream("b", true, true)], [0, 1]);
      Valid(w) && IsOpen(CloseStreams(w), 1)
  {
    var w := World([Stream("a", true, true), Stream("b", true, true)], [0, 1]);
    assert Valid(w);
    CloseFromSweeps(w, 0);
    assert w.openConn[0..] == [0, 1];
    assert Swept(w, [0, 1]) == {0};
  }

  // ---- corrected close_streams ----

  /** `for stream in list(_open_conn): if stream.open: stream.stop()` — the
      loop walks a snapshot of the list, so no stream is skipped. */
  function StopEach(w: World, ids: seq<nat>): (r: World)
    requires Valid(w) && forall k :: 0 <= k < |ids| ==> ids[k] < |w.streams|
    ensures Valid(r) && |r.streams| == |w.streams|
    ensures forall k :: 0 <= k < |ids| ==> !IsOpen(r, ids[k])
    ensures forall id :: 0 <= id < |w.streams| && !IsOpen(w, id) ==> r.streams[id] == w.streams[id]
    ensures forall id :: 0 <= id < |w.streams| ==>
      r.streams[id].mac == w.streams[id].mac && r.streams[id].started == w.streams[id].started
    ensures forall x :: x in r.openConn <==> x in w.openConn && (x !in ids || !IsOpen(w, x))
    decreases |ids|
  {
    if |ids| == 0 then w
    else
      StopValid(w, ids[0]);
      StopEach(Stop(w, ids[0]).value, ids[1..])
  }

  /** `close_streams()` over a snapshot of `_open_conn`. */
  function CloseStreamsSnapshot(w: World): (r: World)
    requires Valid(w)
    ensures Valid(r)
  {
    StopEach(w, w.openConn)
  }

  /** The corrected loop stops every stream, keeps the streams that were not
      open exactly as they were, and leaves only them in the list. */
  lemma CloseStreamsSnapshotStopsAll(w: World)
    requires Valid(w)
    ensures var r := CloseStreamsSnapshot(w);
      && |r.streams| == |w.streams|
      && (forall id :: 0 <= id < |w.streams| ==> !IsOpen(r, id))
      && (forall id :: 0 <= id < |w.streams| && !IsOpen(w, id) ==> r.streams[id] == w.streams[id])
      && (forall x :: x in r.openConn <==> x in w.openConn && !IsOpen(w, x))
  {
  }
}

=== FILE: results.dfy ===
/** Option and Result values used for the error paths of the model: every
    Python exception that the source raises or catches becomes an `Err`. */
module Results {

  datatype Option<+T> = None | Some(value: T)

  datatype Result<+T, +E> = Ok(value: T) | Err(error: E)
}

=== FILE: run_properties.dfy ===
/** What the stream threads of shimmer_listener/_streams.py deliver and
    leave behind, for the inputs the protocol is built around and for the
    failures it handles. */
module RunProperties {
  import opened Results
  import opened Bytes
  import opened FrameCodec
  import opened DataFrames
  import opened Registry
  import opened Receive
  import opened StreamRun

  /** A presentation frame whose last `recv` takes the buffer past 112 bytes
      is a `struct.error`: the thread clears `_running`, hands nothing to
      `process` and returns. Unless a `stop` call fell inside the receive
      loop, the stream stays in `_open_conn`, and `stop` can no longer
      remove it. */
  lemma OversizedHeaderLeavesStreamListed(w: World, id: nat, evs: seq<Event>)
    requires Valid(w) && id < |w.streams| && !w.streams[id].started
    requires |Accumulate(evs, HeaderSize).buf| > HeaderSize
    ensures var r := RunSlave(w, id, evs);
      && r.outcome == Closed && r.records == []
      && !IsOpen(r.w, id)
      && (id in r.w.openConn <==> !Accumulate(evs, HeaderSize).stopped)
      && Stop(r.w, id) == Ok(r.w)
  {
    var h := Accumulate(evs, HeaderSize);
    StartValid(w, id);
    var w0 := Start(w, id);
    assert id in w0.openConn;
    StopValid(w0, id);
  }

  /** The header arrives in two `recv(112)` calls, neither returning more
      than asked, and the second overshoots: the same caught `struct.error`. */
  lemma SplitHeaderOvershoot(w: World, id: nat, b1: seq<Byte>, b2: seq<Byte>, more: seq<Event>)
    requires Valid(w) && id < |w.streams| && !w.streams[id].started
    requires |b1| < HeaderSize && |b2| <= HeaderSize && |b1| + |b2| > HeaderSize
    ensures var r := RunSlave(w, id, [Recv(b1), Recv(b2)] + more);
      && r.outcome == Closed && r.records == []
      && !IsOpen(r.w, id) && id in r.w.openConn
      && Stop(r.w, id) == Ok(r.w)
  {
    var evs := [Recv(b1), Recv(b2)] + more;
    var a := Acc(b1 + b2, 2, Filled, false);
    assert evs[..2] == [Recv(b1), Recv(b2)];
    assert evs[..1] == [Recv(b1)] && evs[..0] == [];
    assert Received(evs[..1]) == b1 + Received([]);
    assert [Recv(b1), Recv(b2)][1..] == [Recv(b2)];
    assert Received(evs[..2]) == b1 + Received([Recv(b2)]);
    assert Received([Recv(b2)]) == b2 + Received([]);
    AccumulateUnique(evs, HeaderSize, a);
    OversizedHeaderLeavesStreamListed(w, id, evs);
  }

  /** Whole data frames, one per `recv`, are decoded in order; a `stop`
      call after them ends the loop, and without one the thread waits. */
  lemma {:induction false} SlaveLoopWholeFrames(w: World, id: nat, info: FrameInfo,
                                                frames: seq<seq<Byte>>, tail: seq<Event>)
    requires Valid(w) && id < |w.streams| && w.streams[id].started && IsOpen(w, id)
    requires info.frameSize > 0
    requires WellFormed(info)
    requires forall k :: 0 <= k < |frames| ==> |frames[k]| == info.frameSize
    requires tail == [] || tail[0] == StopCall
    ensures SlaveLoop(w, id, info, FrameEvents(frames) + tail)
      == Run(StopIf(w, id, tail != []), FramesRecords(info, frames), if tail == [] then Pending else Closed)
  {
    var evs := FrameEvents(frames) + tail;
    if |frames| == 0 {
      assert evs == tail;
      SlaveLoopTail(w, id, info, tail);
    } else {
      var more := FrameEvents(frames[1..]) + tail;
      assert evs[0] == Recv(frames[0]) && evs[1..] == more by { FrameEventsRest(frames, tail); }
      var next := SlaveLoop(w, id, info, more);
      assert next == Run(StopIf(w, id, tail != []), FramesRecords(info, frames[1..]), if tail == [] then Pending else Closed) by {
        SlaveLoopWholeFrames(w, id, info, frames[1..], tail);
      }
      assert SlaveLoop(w, id, info, evs) == Run(next.w, DecodeFrame(info, frames[0]).records + next.records, next.outcome) by {
        WellFormedFrame(info, frames[0]);
        SlaveLoopStep(w, id, info, evs);
      }
    }
  }

  /** With nothing more to read the loop waits; a pending `stop` ends it. */
  lemma SlaveLoopTail(w: World, id: nat, info: FrameInfo, tail: seq<Event>)
    requires Valid(w) && id < |w.streams| && w.streams[id].started && IsOpen(w, id)
    requires info.frameSize > 0
    requires tail == [] || tail[0] == StopCall
    ensures SlaveLoop(w, id, info, tail) == Run(StopIf(w, id, tail != []), [], if tail == [] then Pending else Closed)
  {
    if tail != [] {
      assert LeadingStops(tail) > 0;
    }
  }

  /** One whole frame that decodes cleanly is handed to `process` and the
      loop goes round again. */
  lemma SlaveLoopStep(w: World, id: nat, info: FrameInfo, evs: seq<Event>)
    requires Valid(w) && id < |w.streams| && w.streams[id].started && IsOpen(w, id)
    requires |evs| > 0 && evs[0].Recv? && |evs[0].block| == info.frameSize > 0
    requires DecodeFrame(info, evs[0].block).fault.None?
    ensures var next := SlaveLoop(w, id, info, evs[1..]);
      SlaveLoop(w, id, info, evs) == Run(next.w, DecodeFrame(info, evs[0].block).records + next.records, next.outcome)
  {
    AccumulateOneBlock(evs, info.frameSize);
    assert evs[0..] == evs;
  }

  lemma {:induction false} FrameEventsRest(frames: seq<seq<Byte>>, tail: seq<Event>)
    requires |frames| > 0
    ensures (FrameEvents(frames) + tail)[0] == Recv(frames[0])
    ensures (FrameEvents(frames) + tail)[1..] == FrameEvents(frames[1..]) + tail
  {
    var r := FrameEvents(frames[1..]);
    assert FrameEvents(frames) == [Recv(frames[0])] + r;
    assert FrameEvents(frames) + tail == [Recv(frames[0])] + (r + tail);
  }

  /** One `recv` per block delivers the blocks laid end to end. */
  lemma {:induction false} ReceivedBlocks(blocks: seq<seq<Byte>>)
    ensures Received(FrameEvents(blocks)) == Concat(blocks)
  {
    if |blocks| > 0 {
      ReceivedBlocks(blocks[1..]);
      ConcatCons(blocks);
      assert FrameEvents(blocks)[1..] == FrameEvents(blocks[1..]);
    }
  }

  /** A frame that arrives over several `recv` calls is gathered whole once
      the bytes reach `n`, and the loop consumes exactly those calls. */
  lemma AccumulateBlocks(blocks: seq<seq<Byte>>, more: seq<Event>, n: nat)
    requires |blocks| > 0 && n <= |Concat(blocks)|
    requires forall j :: 0 <= j < |blocks| ==> |Concat(blocks[..j])| < n
    ensures Accumulate(FrameEvents(blocks) + more, n) == Acc(Concat(blocks), |blocks|, Filled, false)
  {
    var evs := FrameEvents(blocks) + more;
    var a := Acc(Concat(blocks), |blocks|, Filled, false);
    forall j | 0 <= j <= |blocks|
      ensures Received(evs[..j]) == Concat(blocks[..j])
    {
      assert evs[..j] == FrameEvents(blocks[..j]);
      ReceivedBlocks(blocks[..j]);
    }
    assert blocks[..|blocks|] == blocks;
    assert StopCall !in evs[..|blocks|];
    AccumulateUnique(evs, n, a);
  }

  /** A data frame received in several blocks that decodes cleanly is handed
      to `process` and the loop goes round again. */
  lemma SlaveLoopBlocks(w: World, id: nat, info: FrameInfo, blocks: seq<seq<Byte>>, more: seq<Event>)
    requires Valid(w) && id < |w.streams| && w.streams[id].started && IsOpen(w, id)
    requires |blocks| > 0 && info.frameSize <= |Concat(blocks)|
    requires forall j :: 0 <= j < |blocks| ==> |Concat(blocks[..j])| < info.frameSize
    requires DecodeFrame(info, Concat(blocks)).fault.None?
    ensures var next := SlaveLoop(w, id, info, more);
      SlaveLoop(w, id, info, FrameEvents(blocks) + more)
        == Run(next.w, DecodeFrame(info, Concat(blocks)).records + next.records, next.outcome)
  {
    var evs := FrameEvents(blocks) + more;
    AccumulateBlocks(blocks, more, info.frameSize);
    assert evs[0] == Recv(blocks[0]);
    assert evs[0..] == evs && evs[|blocks|..] == more;
  }

  /** A presentation frame, one data frame received in several blocks and
      a `stop` call: the frame's records are delivered and the stream closes
      and leaves `_open_conn`. */
  lemma BlocksThenStop(w: World, id: nat, info: FrameInfo, blocks: seq<seq<Byte>>)
    requires Valid(w) && id < |w.streams| && !w.streams[id].started
    requires Representable(info) && info.frameSize > 0
    requires |blocks| > 0 && info.frameSize <= |Concat(blocks)|
    requires forall j :: 0 <= j < |blocks| ==> |Concat(blocks[..j])| < info.frameSize
    requires DecodeFrame(info, Concat(blocks)).fault.None?
    ensures var r := RunSlave(w, id, [Recv(EncodeHeader(info))] + (FrameEvents(blocks) + [StopCall]));
      && r.records == DecodeFrame(info, Concat(blocks)).records
      && r.outcome == Closed
      && !IsOpen(r.w, id) && id !in r.w.openConn
  {
    StartValid(w, id);
    SlaveHeader(w, id, info, FrameEvents(blocks) + [StopCall]);
    SlaveLoopBlocks(Start(w, id), id, info, blocks, [StopCall]);
    SlaveLoopTail(Start(w, id), id, info, [StopCall]);
  }

  /** With a chunk length that divides the frame size, the records
      `BlocksThenStop` delivers are those of the frame's first `framesize`
      bytes alone, however the blocks were split. */
  lemma BlocksThenStopFrameOnly(w: World, id: nat, info: FrameInfo, blocks: seq<seq<Byte>>)
    requires Valid(w) && id < |w.streams| && !w.streams[id].started
    requires Representable(info) && info.frameSize > 0
    requires info.lenChunks > 0 && info.frameSize % info.lenChunks == 0
    requires |blocks| > 0 && info.frameSize <= |Concat(blocks)|
    requires forall j :: 0 <= j < |blocks| ==> |Concat(blocks[..j])| < info.frameSize
    requires DecodeFrame(info, Concat(blocks)[..info.frameSize]).fault.None?
    ensures var r := RunSlave(w, id, [Recv(EncodeHeader(info))] + (FrameEvents(blocks) + [StopCall]));
      r.records == DecodeFrame(info, Concat(blocks)[..info.frameSize]).records
  {
    DividingChunksIgnoreSurplus(info, Concat(blocks));
    BlocksThenStop(w, id, info, blocks);
  }

  /** A presentation frame sent in one `recv` hands the rest of the input
      to the data loop with the descriptor it encodes. */
  lemma SlaveHeader(w: World, id: nat, info: FrameInfo, after: seq<Event>)
    requires Valid(w) && id < |w.streams| && !w.streams[id].started
    requires Representable(info)
    ensures Valid(Start(w, id))
    ensures RunSlave(w, id, [Recv(EncodeHeader(info))] + after) == SlaveLoop(Start(w, id), id, info, after)
  {
    StartValid(w, id);
    var evs := [Recv(EncodeHeader(info))] + after;
    AccumulateOneBlock(evs, HeaderSize);
    DecodeEncodeHeader(info);
    assert evs[1..] == after;
  }

  /** A slave mote that sends its presentation frame and then whole data
      frames: the records are those of the frames, in order, with
      `framesize / lenchunks` records per frame when the descriptor is
      well formed. */
  lemma SlaveWholeFrames(w: World, id: nat, info: FrameInfo, frames: seq<seq<Byte>>, tail: seq<Event>)
    requires Valid(w) && id < |w.streams| && !w.streams[id].started
    requires Representable(info) && WellFormed(info) && info.frameSize > 0
    requires forall k :: 0 <= k < |frames| ==> |frames[k]| == info.frameSize
    requires tail == [] || tail[0] == StopCall
    ensures var r := RunSlave(w, id, [Recv(EncodeHeader(info))] + (FrameEvents(frames) + tail));
      && r.records == FramesRecords(info, frames)
      && |r.records| == |frames| * (info.frameSize / info.lenChunks)
      && r.outcome == (if tail == [] then Pending else Closed)
      && (tail == [] ==> IsOpen(r.w, id) && id in r.w.openConn)
      && (tail != [] ==> !IsOpen(r.w, id) && id !in r.w.openConn)
  {
    StartValid(w, id);
    SlaveHeader(w, id, info, FrameEvents(frames) + tail);
    WellFormedFrames(info, frames);
    SlaveLoopWholeFrames(Start(w, id), id, info, frames, tail);
    FramesRecordsLength(info, frames);
    TimesIsProduct(|frames|, PerFrame(info.frameSize, info.lenChunks));
  }

  /** A presentation frame, one data frame and a `stop` call: the frame's
      records are delivered and the stream closes and leaves `_open_conn`. */
  lemma OneFrameThenStop(w: World, id: nat, info: FrameInfo, frame: seq<Byte>)
    requires Valid(w) && id < |w.streams| && !w.streams[id].started
    requires Representable(info) && WellFormed(info) && info.frameSize > 0
    requires |frame| == info.frameSize
    ensures var r := RunSlave(w, id, [Recv(EncodeHeader(info)), Recv(frame), StopCall]);
      && r.records == DecodeFrame(info, frame).records
      && r.outcome == Closed
      && !IsOpen(r.w, id) && id !in r.w.openConn
  {
    var frames := [frame];
    assert [Recv(EncodeHeader(info)), Recv(frame), StopCall]
      == [Recv(EncodeHeader(info))] + (FrameEvents(frames) + [StopCall]);
    SlaveWholeFrames(w, id, info, frames, [StopCall]);
    assert frames[1..] == [];
  }

  function PerFrame(frameSize: nat, lenChunks: nat): (c: nat)
    requires lenChunks > 0
    ensures c == frameSize / lenChunks
  {
    frameSize / lenChunks
  }

  lemma WellFormedFrames(info: FrameInfo, frames: seq<seq<Byte>>)
    requires WellFormed(info)
    requires forall k :: 0 <= k < |frames| ==> |frames[k]| == info.frameSize
    ensures forall k :: 0 <= k < |frames| ==> DecodeFrame(info, frames[k]).fault.None?
    ensures forall k :: 0 <= k < |frames| ==>
      |DecodeFrame(info, frames[k]).records| == info.frameSize / info.lenChunks
  {
    forall k | 0 <= k < |frames|
      ensures DecodeFrame(info, frames[k]).fault.None?
      ensures |DecodeFrame(info, frames[k]).records| == info.frameSize / info.lenChunks
    {
      WellFormedFrame(info, frames[k]);
    }
  }

  /** Under a well-formed descriptor whole frames give `framesize / lenchunks`
      records each. */
  lemma {:induction false} FramesRecordsLength(info: FrameInfo, frames: seq<seq<Byte>>)
    requires WellFormed(info)
    requires forall k :: 0 <= k < |frames| ==> |frames[k]| == info.frameSize
    ensures |FramesRecords(info, frames)| == Times(|frames|, PerFrame(info.frameSize, info.lenChunks))
  {
    if |frames| > 0 {
      WellFormedFrame(info, frames[0]);
      FramesRecordsLength(info, frames[1..]);
    }
  }

  /** `n * c` as repeated addition, so that counting proofs stay linear. */
  function Times(n: nat, c: nat): nat
  {
    if n == 0 then 0 else c + Times(n - 1, c)
  }

  lemma {:induction false} TimesIsProduct(n: nat, c: nat)
    ensures Times(n, c) == n * c
  {
    if n > 0 {
      TimesIsProduct(n - 1, c);
      assert n * c == c + (n - 1) * c;
    }
  }

  /** `stop` during a data frame does not interrupt it: the frame is
      completed and handed to `process`, and the loop ends at its next test
      of `_running`. */
  lemma StopMidFrame(w: World, id: nat, info: FrameInfo, p1: seq<Byte>, p2: seq<Byte>, more: seq<Event>)
    requires Valid(w) && id < |w.streams| && w.streams[id].started && IsOpen(w, id)
    requires |p1| < info.frameSize <= |p1| + |p2|
    requires DecodeFrame(info, p1 + p2).fault.None?
    ensures var r := SlaveLoop(w, id, info, [Recv(p1), StopCall, Recv(p2)] + more);
      && r.records == DecodeFrame(info, p1 + p2).records
      && r.outcome == Closed
      && !IsOpen(r.w, id) && id !in r.w.openConn
  {
    var evs := [Recv(p1), StopCall, Recv(p2)] + more;
    assert LeadingStops(evs) == 0;
    assert evs[0..] == evs;
    AccumulateSplit(p1, p2, more, info.frameSize);
    var w1 := StopIf(w, id, true);
    assert evs[3..] == more;
    var k := LeadingStops(more);
    assert StopIf(w1, id, k > 0) == w1;
  }

  /** A zero chunk length makes `range` raise once the first frame is in:
      nothing is delivered and the stream stays open. */
  lemma ZeroChunkLengthRaises(w: World, id: nat, info: FrameInfo, frame: seq<Byte>, more: seq<Event>)
    requires Valid(w) && id < |w.streams| && w.streams[id].started && IsOpen(w, id)
    requires info.lenChunks == 0 && |frame| >= info.frameSize > 0
    ensures SlaveLoop(w, id, info, [Recv(frame)] + more) == Run(w, [], Raised)
  {
    AccumulateOneBlock([Recv(frame)] + more, info.frameSize);
  }

  // ---- BtMasterInputStream ----

  /** A `BluetoothError` ends the master loop with the socket closed but
      `_running` still set, so the stream remains open and listed. */
  lemma MasterLinkDownStaysOpen(w: World, id: nat, mac: string, more: seq<Event>)
    requires Valid(w) && id < |w.streams| && !w.streams[id].started
    ensures var r := RunMaster(w, id, mac, [LinkDown] + more);
      && r.outcome == Closed && r.records == []
      && IsOpen(r.w, id) && id in r.w.openConn
  {
    AccumulateLinkDown([LinkDown] + more, MasterFrameSize);
  }

  /** One record per master frame, from its first 22 bytes. */
  function MasterRecords(mac: string, frames: seq<seq<Byte>>): (rs: seq<MasterSample>)
    requires forall k :: 0 <= k < |frames| ==> |frames[k]| >= MasterFrameSize
    ensures |rs| == |frames|
  {
    if |frames| == 0 then []
    else [DecodeMasterFrame(mac, frames[0][..MasterFrameSize])] + MasterRecords(mac, frames[1..])
  }

  /** Master frames, one per `recv`: each yields one record from its first
      22 bytes; whatever a `recv` returns beyond them is dropped. */
  lemma {:induction false} MasterLoopFrames(w: World, id: nat, mac: string, frames: seq<seq<Byte>>)
    requires Valid(w) && id < |w.streams| && w.streams[id].started && IsOpen(w, id)
    requires forall k :: 0 <= k < |frames| ==> |frames[k]| >= MasterFrameSize
    ensures MasterLoop(w, id, mac, FrameEvents(frames)) == Run(w, MasterRecords(mac, frames), Pending)
  {
    if |frames| == 0 {
      MasterLoopEmpty(w, id, mac);
    } else {
      MasterLoopFrames(w, id, mac, frames[1..]);
      MasterLoopCons(w, id, mac, frames);
    }
  }

  /** With nothing to read the master loop is left waiting in `recv`. */
  lemma MasterLoopEmpty(w: World, id: nat, mac: string)
    requires Valid(w) && id < |w.streams| && w.streams[id].started && IsOpen(w, id)
    ensures MasterLoop(w, id, mac, []) == Run(w, [], Pending)
  {
  }

  /** The inductive step of `MasterLoopFrames`: one more frame in front. */
  lemma MasterLoopCons(w: World, id: nat, mac: string, frames: seq<seq<Byte>>)
    requires Valid(w) && id < |w.streams| && w.streams[id].started && IsOpen(w, id)
    requires |frames| > 0 && forall k :: 0 <= k < |frames| ==> |frames[k]| >= MasterFrameSize
    requires MasterLoop(w, id, mac, FrameEvents(frames[1..])) == Run(w, MasterRecords(mac, frames[1..]), Pending)
    ensures MasterLoop(w, id, mac, FrameEvents(frames)) == Run(w, MasterRecords(mac, frames), Pending)
  {
    var more := FrameEvents(frames[1..]);
    assert FrameEvents(frames) == [Recv(frames[0])] + more;
    MasterLoopStep(w, id, mac, frames[0], more);
  }

  lemma MasterLoopStep(w: World, id: nat, mac: string, b: seq<Byte>, more: seq<Event>)
    requires Valid(w) && id < |w.streams| && w.streams[id].started && IsOpen(w, id)
    requires |b| >= MasterFrameSize
    ensures var next := MasterLoop(w, id, mac, more);
      MasterLoop(w, id, mac, [Recv(b)] + more)
        == Run(next.w, [DecodeMasterFrame(mac, b[..MasterFrameSize])] + next.records, next.outcome)
  {
    var evs := [Recv(b)] + more;
    AccumulateOneBlock(evs, MasterFrameSize);
    assert evs[0..] == evs && evs[1..] == more;
  }

  /** `RunMaster` on frames: each record carries the mote's address and
      the six words at offsets 7, 9, 11, 13, 15 and 17 of its frame. */
  lemma MasterFrames(w: World, id: nat, mac: string, frames: seq<seq<Byte>>)
    requires Valid(w) && id < |w.streams| && !w.streams[id].started
    requires forall k :: 0 <= k < |frames| ==> |frames[k]| >= MasterFrameSize
    ensures var r := RunMaster(w, id, mac, FrameEvents(frames));
      && r.outcome == Pending && |r.records| == |frames|
      && forall k :: 0 <= k < |frames| ==> MasterRecordOf(r.records[k], mac, frames[k])
  {
    StartValid(w, id);
    MasterLoopFrames(Start(w, id), id, mac, frames);
    MasterRecordsOf(mac, frames);
  }

  lemma {:induction false} MasterRecordsOf(mac: string, frames: seq<seq<Byte>>)
    requires forall k :: 0 <= k < |frames| ==> |frames[k]| >= MasterFrameSize
    ensures forall k :: 0 <= k < |frames| ==> MasterRecordOf(MasterRecords(mac, frames)[k], mac, frames[k])
  {
    if |frames| > 0 {
      var rs := MasterRecords(mac, frames);
      MasterPrefix(mac, frames[0]);
      MasterRecordsOf(mac, frames[1..]);
      forall k | 1 <= k < |frames|
        ensures MasterRecordOf(rs[k], mac, frames[k])
      {
        assert rs[k] == MasterRecords(mac, frames[1..])[k - 1] && frames[k] == frames[1..][k - 1];
      }
    }
  }

  /** The record of a master frame: its address and six little-endian words. */
  predicate MasterRecordOf(s: MasterSample, mac: string, frame: seq<Byte>)
    requires |frame| >= MasterFrameSize
  {
    && s.mac == mac
    && s.accelX == U16At(frame, 7) && s.accelY == U16At(frame, 9) && s.accelZ == U16At(frame, 11)
    && s.gyroX == U16At(frame, 13) && s.gyroY == U16At(frame, 15) && s.gyroZ == U16At(frame, 17)
  }

  lemma MasterPrefix(mac: string, frame: seq<Byte>)
    requires |frame| >= MasterFrameSize
    ensures MasterRecordOf(DecodeMasterFrame(mac, frame[..MasterFrameSize]), mac, frame)
  {
    var f := frame[..MasterFrameSize];
    assert forall o :: 0 <= o < MasterFrameSize ==> f[o] == frame[o];
  }
}

=== FILE: session.dfy ===
/** The public interface of shimmer_listener/__init__.py: the operating
    mode `_op_mode`, the `listen`/`close` dispatch tables indexed by the
    mode, and `bt_init`, `bt_listen` and `bt_close`. */
module Session {
  import opened Results
  import opened Registry
  import opened Master

  /** `BtMode`; its `index` property is its value. */
  datatype BtMode = MasterMode | SlaveMode

  function Index(m: BtMode): (i: nat)
    ensures i < 2
  {
    match m
    case MasterMode => 0
    case SlaveMode => 1
  }

  lemma IndexInjective(a: BtMode, b: BtMode)
    ensures Index(a) == Index(b) <==> a == b
  {
  }

  /** The entries of the `listen` and `close` tables. */
  datatype RoleListen = MasterListenOp | SlaveListenOp
  datatype RoleClose = MasterCloseOp | SlaveCloseOp

  const ListenTable: seq<RoleListen> := [MasterListenOp, SlaveListenOp]
  const CloseTable: seq<RoleClose> := [MasterCloseOp, SlaveCloseOp]

  /** `_bt_sock` of the slave side: not yet created, listening, or closed. */
  datatype SlaveSocket = NoSocket | Listening | SocketClosed

  /** The module-level state the three calls share. */
  datatype Session = Session(opMode: Option<BtMode>, master: MasterState, slaveSock: SlaveSocket, world: World)

  const InitialSession: Session := Session(None, InitialMaster, NoSocket, Initial)

  predicate SessionValid(s: Session)
  {
    Valid(s.world)
  }

  /** The `ValueError`s of the interface. */
  datatype SessionError = AlreadyInitialized | NotInitialized

  /** `bt_init(mode)`: refuse a second initialisation; otherwise record the
      mode and, for the slave mode, create the listening socket. */
  function BtInit(s: Session, mode: BtMode): (r: Result<Session, SessionError>)
    ensures r.Err? <==> s.opMode.Some?
    ensures r.Err? ==> r.error == AlreadyInitialized
    ensures r.Ok? ==> r.value.opMode == Some(mode) && r.value.world == s.world && r.value.master == s.master
    ensures r.Ok? ==> (r.value.slaveSock == Listening <==> mode == SlaveMode || s.slaveSock == Listening)
  {
    if s.opMode.Some? then Err(AlreadyInitialized)
    else Ok(s.(opMode := Some(mode), slaveSock := if mode == SlaveMode then Listening else s.slaveSock))
  }

  /** The session after `bt_listen`, and the run of the master's discovery
      loop when that is the loop the mode selected. */
  datatype Listened = Listened(after: Session, masterRun: Option<ListenRun>)

  /** `bt_listen`: run the listen loop the mode selects. The master loop runs
      over the given discovery cycles and its final state is kept; the
      slave's accept loop is transport I/O and leaves the session as it was. */
  function BtListen(s: Session, cycles: seq<Cycle>): (r: Result<Listened, SessionError>)
    ensures r.Err? <==> s.opMode.None?
    ensures r.Err? ==> r.error == NotInitialized
    ensures r.Ok? ==> (r.value.masterRun.Some? <==> s.opMode == Some(MasterMode))
    ensures r.Ok? && r.value.masterRun.Some? ==>
      && r.value.masterRun.value == MasterListen(s.master, cycles)
      && r.value.after == s.(master := r.value.masterRun.value.st)
    ensures r.Ok? && r.value.masterRun.None? ==> r.value.after == s
  {
    match s.opMode
    case None => Err(NotInitialized)
    case Some(m) =>
      match ListenTable[Index(m)]
      case MasterListenOp =>
        var run := MasterListen(s.master, cycles);
        Ok(Listened(s.(master := run.st), Some(run)))
      case SlaveListenOp => Ok(Listened(s, None))
  }

  /** The role's close: `_master_close` clears the discovery flag,
      `_slave_close` closes the listening socket. */
  function RoleCloseStep(s: Session, op: RoleClose): (r: Session)
    ensures r.opMode == s.opMode && r.world == s.world
    ensures op == MasterCloseOp ==> !r.master.discovering && r.slaveSock == s.slaveSock
    ensures op == SlaveCloseOp ==> r.slaveSock == SocketClosed && r.master == s.master
  {
    match op
    case MasterCloseOp => s.(master := MasterClose(s.master))
    case SlaveCloseOp => s.(slaveSock := SocketClosed)
  }

  /** `bt_close`: the role's close, then `close_streams`; the mode is kept. */
  function BtClose(s: Session): (r: Result<Session, SessionError>)
    requires SessionValid(s)
    ensures r.Err? <==> s.opMode.None?
    ensures r.Err? ==> r.error == NotInitialized
    ensures r.Ok? ==> SessionValid(r.value) && r.value.opMode == s.opMode
    ensures r.Ok? ==> r.value.world == CloseStreams(s.world)
  {
    match s.opMode
    case None => Err(NotInitialized)
    case Some(m) =>
      var s1 := RoleCloseStep(s, CloseTable[Index(m)]);
      Ok(s1.(world := CloseStreams(s1.world)))
  }

  /** The tables pair each mode with its own role. */
  lemma DispatchByMode(m: BtMode)
    ensures ListenTable[Index(m)] == (if m == MasterMode then MasterListenOp else SlaveListenOp)
    ensures CloseTable[Index(m)] == (if m == MasterMode then MasterCloseOp else SlaveCloseOp)
  {
  }

  /** `bt_close` in master mode stops discovery; in slave mode it closes the
      listening socket. */
  lemma BtCloseByMode(s: Session)
    requires SessionValid(s) && s.opMode.Some?
    ensures s.opMode == Some(MasterMode) ==> !BtClose(s).value.master.discovering
    ensures s.opMode == Some(SlaveMode) ==> BtClose(s).value.slaveSock == SocketClosed
  {
  }

  /** The interface can be initialised once per process: after a successful
      `bt_init`, and after any `bt_close`, `bt_init` raises. */
  lemma InitOnlyOnce(s: Session, m1: BtMode, m2: BtMode)
    requires SessionValid(s) && s.opMode.None?
    ensures BtInit(s, m1).Ok?
    ensures BtInit(BtInit(s, m1).value, m2) == Err(AlreadyInitialized)
    ensures SessionValid(BtInit(s, m1).value)
    ensures BtClose(BtInit(s, m1).value).Ok?
    ensures BtInit(BtClose(BtInit(s, m1).value).value, m2) == Err(AlreadyInitialized)
  {
  }

  /** Before `bt_init`, `bt_listen` and `bt_close` raise and nothing changes. */
  lemma UninitializedCallsFail(cycles: seq<Cycle>)
    ensures BtListen(InitialSession, cycles) == Err(NotInitialized)
    ensures SessionValid(InitialSession) && BtClose(InitialSession) == Err(NotInitialized)
  {
    InitialValid();
  }

  /** In a fresh master session, `bt_listen` without a close tries exactly
      the shimmer candidates of every discovery cycle, in order. */
  lemma {:induction false} MasterSessionListens(cycles: seq<Cycle>)
    requires forall k :: 0 <= k < |cycles| ==> !cycles[k].closedDuring
    ensures var init := BtInit(InitialSession, MasterMode);
      && init.Ok?
      && BtListen(init.value, cycles).Ok?
      && BtListen(init.value, cycles).value.masterRun.Some?
      && BtListen(init.value, cycles).value.masterRun.value.attempts == Candidates(AllFound(cycles))
      && BtListen(init.value, cycles).value.masterRun.value.cycles == |cycles|
  {
    ListenAllCycles(InitialMaster, cycles);
  }

  /** A `bt_listen` in master mode after `bt_close` runs no discovery cycle
      and tries no device, because the close cleared `_discovering`. */
  lemma ListenAfterCloseIdle(s: Session, cycles: seq<Cycle>)
    requires SessionValid(s) && s.opMode == Some(MasterMode)
    ensures var closed := BtClose(s).value;
      && BtListen(closed, cycles).Ok?
      && BtListen(closed, cycles).value.masterRun == Some(ListenRun(closed.master, [], 0))
      && BtListen(closed, cycles).value.after == closed
  {
  }
}

=== FILE: stream_run.dfy ===
/** The `run` methods of the two input streams of shimmer_listener/_streams.py
    as folds over the events their thread sees. `process` is modelled by the
    sequence of records it is handed, in order. */
module StreamRun {
  import opened Results
  import opened Bytes
  import opened FrameCodec
  import opened DataFrames
  import opened Registry
  import opened Receive

  /** How `run` ended: it returned and closed the socket; an exception
      escaped it and the socket stays open; or the events ran out while it
      was waiting in `recv` or spinning on an empty frame. */
  datatype Outcome = Closed | Raised | Pending

  /** The registry after `run`, the records handed to `process`, and how it ended. */
  datatype Run<R> = Run(w: World, records: seq<R>, outcome: Outcome)

  /** The `stop` calls that fell inside a receive loop; a second `stop` changes nothing. */
  function StopIf(w: World, id: nat, stopped: bool): (r: World)
    requires Valid(w) && id < |w.streams|
    ensures Valid(r) && |r.streams| == |w.streams|
    ensures r.streams[id].started == w.streams[id].started
    ensures stopped ==> !IsOpen(r, id) && (IsOpen(w, id) ==> id !in r.openConn)
    ensures !stopped ==> r == w
    ensures w.streams[id].started ==> Confined(w, id, r)
  {
    StopValid(w, id);
    if stopped then Stop(w, id).value else w
  }

  /** What a run may change: the stream `id` and its place in `_open_conn`. */
  ghost predicate Confined(w: World, id: nat, r: World)
    requires id < |w.streams|
  {
    && Valid(r) && |r.streams| == |w.streams|
    && r.streams[id].started
    && (forall j :: 0 <= j < |w.streams| && j != id ==> r.streams[j] == w.streams[j])
    && (forall x :: x != id ==> (x in r.openConn <==> x in w.openConn))
  }

  lemma ConfinedTrans(w: World, w1: World, r: World, id: nat)
    requires id < |w.streams| && Confined(w, id, w1) && Confined(w1, id, r)
    ensures Confined(w, id, r)
  {
  }

  // ---- BtSlaveInputStream ----

  /** `BtSlaveInputStream.run`: read the presentation frame, then decode
      data frames while `_running`. */
  function RunSlave(w: World, id: nat, evs: seq<Event>): (r: Run<Record>)
    requires Valid(w) && id < |w.streams| && !w.streams[id].started
    ensures Confined(w, id, r.w)
    ensures r.outcome == Closed ==> !IsOpen(r.w, id)
  {
    StartValid(w, id);
    var w0 := Start(w, id);
    var h := Accumulate(evs, HeaderSize);
    var w1 := StopIf(w0, id, h.stopped);
    match h.status
    case Down => Run(w1, [], Raised)
    case Exhausted => Run(w1, [], Pending)
    case Filled =>
      match DecodeHeader(h.buf)
      case Err(HeaderStructError) =>
        ClearRunningValid(w1, id);
        Run(ClearRunning(w1, id), [], Closed)
      case Err(HeaderUndecodable) => Run(w1, [], Raised)
      case Ok(info) => SlaveLoop(w1, id, info, evs[h.used..])
  }

  /** The data loop of `BtSlaveInputStream.run`, from its `while self._running` test. */
  function SlaveLoop(w: World, id: nat, info: FrameInfo, evs: seq<Event>): (r: Run<Record>)
    requires Valid(w) && id < |w.streams| && w.streams[id].started
    ensures Confined(w, id, r.w)
    ensures r.outcome == Closed ==> !IsOpen(r.w, id)
    decreases |evs|
  {
    var k := LeadingStops(evs);
    var w0 := StopIf(w, id, k > 0);
    var rest := evs[k..];
    if !IsOpen(w0, id) then Run(w0, [], Closed)
    else if info.frameSize == 0 then
      if info.lenChunks == 0 then Run(w0, [], Raised)
      else if StopCall in rest then Run(StopIf(w0, id, true), [], Closed)
      else Run(w0, [], Pending)
    else
      var a := Accumulate(rest, info.frameSize);
      var w1 := StopIf(w0, id, a.stopped);
      match a.status
      case Down => Run(w1, [], Raised)
      case Exhausted => Run(w1, [], Pending)
      case Filled =>
        var fr := DecodeFrame(info, a.buf);
        ConfinedTrans(w, w0, w1, id);
        if fr.fault.Some? then Run(w1, fr.records, Raised)
        else
          var next := SlaveLoop(w1, id, info, rest[a.used..]);
          ConfinedTrans(w, w1, next.w, id);
          Run(next.w, fr.records + next.records, next.outcome)
  }

  // ---- BtMasterInputStream ----

  /** `BtMasterInputStream.run`: decode 22-byte frames while `_running`; a
      `BluetoothError` ends the loop without clearing `_running`. */
  function RunMaster(w: World, id: nat, mac: string, evs: seq<Event>): (r: Run<MasterSample>)
    requires Valid(w) && id < |w.streams| && !w.streams[id].started
    ensures Confined(w, id, r.w)
  {
    StartValid(w, id);
    MasterLoop(Start(w, id), id, mac, evs)
  }

  function MasterLoop(w: World, id: nat, mac: string, evs: seq<Event>): (r: Run<MasterSample>)
    requires Valid(w) && id < |w.streams| && w.streams[id].started
    ensures Confined(w, id, r.w)
    decreases |evs|
  {
    var k := LeadingStops(evs);
    var w0 := StopIf(w, id, k > 0);
    var rest := evs[k..];
    if !IsOpen(w0, id) then Run(w0, [], Closed)
    else
      var a := Accumulate(rest, MasterFrameSize);
      var w1 := StopIf(w0, id, a.stopped);
      match a.status
      case Down => Run(w1, [], Closed)
      case Exhausted => Run(w1, [], Pending)
      case Filled =>
        var s := DecodeMasterFrame(mac, a.buf[..MasterFrameSize]);
        ConfinedTrans(w, w0, w1, id);
        var next := MasterLoop(w1, id, mac, rest[a.used..]);
        ConfinedTrans(w, w1, next.w, id);
        Run(next.w, [s] + next.records, next.outcome)
  }

  // ---- reference definitions for whole-frame input ----

  /** One `recv` per element of `frames`. */
  function FrameEvents(frames: seq<seq<Byte>>): (evs: seq<Event>)
    ensures |evs| == |frames|
    ensures forall k :: 0 <= k < |frames| ==> evs[k] == Recv(frames[k])
  {
    if |frames| == 0 then [] else [Recv(frames[0])] + FrameEvents(frames[1..])
  }

  /** The records of each frame in turn. */
  function FramesRecords(info: FrameInfo, frames: seq<seq<Byte>>): seq<Record>
    requires forall k :: 0 <= k < |frames| ==> |frames[k]| >= info.frameSize
  {
    if |frames| == 0 then [] else DecodeFrame(info, frames[0]).records + FramesRecords(info, frames[1..])
  }
}

=== FILE: struct_codec.dfy ===
/** The part of Python's `struct` module the stream engine relies on: format
    strings over the integer codes b/B/h/H/i/I in native mode (native
    alignment, little-endian byte order), `calcsize` and `unpack`, together
    with the matching `pack` that a mote uses to produce the bytes. */
module StructCodec {
  import opened Results
  import opened Bytes

  /** Field codes: `b` int8, `B` uint8, `h` int16, `H` uint16, `i` int32, `I` uint32. */
  datatype Code = I8 | U8 | I16 | U16 | I32 | U32

  /** Native size of a field; for these codes it is also its native alignment. */
  function Width(c: Code): (w: nat)
    ensures w == 1 || w == 2 || w == 4
  {
    match c
    case I8 | U8 => 1
    case I16 | U16 => 2
    case I32 | U32 => 4
  }

  /** `256 ^ Width(c)`: the number of distinct values of a field. */
  function Modulus(c: Code): (m: nat)
    ensures m > 0 && m % 2 == 0
  {
    match c
    case I8 | U8 => 256
    case I16 | U16 => 65536
    case I32 | U32 => 4294967296
  }

  lemma ModulusPow(c: Code)
    ensures Modulus(c) == Pow256(Width(c))
  {
    assert Pow256(2) == 65536;
    assert Pow256(4) == 4294967296 by {
      assert Pow256(3) == 16777216;
    }
  }

  predicate IsSigned(c: Code)
  {
    c.I8? || c.I16? || c.I32?
  }

  function CodeChar(c: Code): char
  {
    match c
    case I8 => 'b'
    case U8 => 'B'
    case I16 => 'h'
    case U16 => 'H'
    case I32 => 'i'
    case U32 => 'I'
  }

  function CharCode(ch: char): (r: Option<Code>)
    ensures r.Some? ==> CodeChar(r.value) == ch
  {
    match ch
    case 'b' => Some(I8)
    case 'B' => Some(U8)
    case 'h' => Some(I16)
    case 'H' => Some(U16)
    case 'i' => Some(I32)
    case 'I' => Some(U32)
    case _ => None
  }

  /** What `struct.unpack` raises as `struct.error`. */
  datatype StructError =
    | BadChar(position: nat)                  // a character that is not a supported code
    | SizeMismatch(expected: nat, actual: nat) // buffer length differs from `calcsize`

  /** Parses a format string into codes; on failure reports the first bad position. */
  function ParseFormat(fmt: string): (r: Result<seq<Code>, nat>)
    ensures r.Ok? <==> forall i :: 0 <= i < |fmt| ==> CharCode(fmt[i]).Some?
    ensures r.Ok? ==> |r.value| == |fmt|
    ensures r.Ok? ==> forall i :: 0 <= i < |fmt| ==> CodeChar(r.value[i]) == fmt[i]
    ensures r.Err? ==> r.error < |fmt| && CharCode(fmt[r.error]).None?
    ensures r.Err? ==> forall i :: 0 <= i < r.error ==> CharCode(fmt[i]).Some?
  {
    if |fmt| == 0 then Ok([])
    else match CharCode(fmt[0])
      case None => Err(0)
      case Some(c) =>
        match ParseFormat(fmt[1..])
        case Err(p) => Err(p + 1)
        case Ok(cs) => Ok([c] + cs)
  }

  /** The format string that spells a sequence of codes. */
  function FormatOf(codes: seq<Code>): (fmt: string)
    ensures |fmt| == |codes|
  {
    seq(|codes|, i requires 0 <= i < |codes| => CodeChar(codes[i]))
  }

  lemma CharCodeOfCodeChar(c: Code)
    ensures CharCode(CodeChar(c)) == Some(c)
  {
  }

  lemma {:induction false} ParseFormatOf(codes: seq<Code>)
    ensures ParseFormat(FormatOf(codes)) == Ok(codes)
  {
    if |codes| > 0 {
      assert FormatOf(codes)[1..] == FormatOf(codes[1..]);
      ParseFormatOf(codes[1..]);
      CharCodeOfCodeChar(codes[0]);
      assert [codes[0]] + codes[1..] == codes;
    }
  }

  /** `off` is a multiple of the field width `w`. */
  predicate Aligned(off: nat, w: nat)
  {
    if w == 2 then off % 2 == 0 else if w == 4 then off % 4 == 0 else true
  }

  /** Rounds `off` up to the next multiple of the field width `w` (native alignment). */
  function AlignUp(off: nat, w: nat): (r: nat)
    requires w == 1 || w == 2 || w == 4
    ensures off <= r < off + w
  {
    if w == 1 then off
    else if w == 2 then
      if off % 2 == 0 then off else off + 1
    else
      var m := off % 4;
      if m == 0 then off else off + (4 - m)
  }

  /** `AlignUp` gives the first aligned offset at or after `off`. */
  lemma AlignUpLeast(off: nat, w: nat)
    requires w == 1 || w == 2 || w == 4
    ensures Aligned(AlignUp(off, w), w)
    ensures forall x :: off <= x < AlignUp(off, w) ==> !Aligned(x, w)
  {
    if w == 2 && off % 2 != 0 {
      assert off + 1 == 2 * (off / 2 + 1);
    } else if w == 4 && off % 4 != 0 {
      assert off + (4 - off % 4) == 4 * (off / 4 + 1);
      forall x | off <= x < AlignUp(off, w)
        ensures !Aligned(x, w)
      {
        assert x == 4 * (off / 4) + (x - 4 * (off / 4));
      }
    }
  }

  /** Offset just past the last field when the fields are laid out from `start`. */
  function EndFrom(codes: seq<Code>, start: nat): (r: nat)
    ensures r >= start
  {
    if |codes| == 0 then start
    else EndFrom(codes[1..], AlignUp(start, Width(codes[0])) + Width(codes[0]))
  }

  /** `struct.calcsize`: fields in order, each aligned to its own width, no trailing padding. */
  function CalcSize(codes: seq<Code>): nat
  {
    EndFrom(codes, 0)
  }

  predicate InRange(c: Code, v: int)
  {
    if IsSigned(c) then -(Modulus(c) / 2) <= v < Modulus(c) / 2
    else 0 <= v < Modulus(c)
  }

  /** Value of one field from its `Width(c)` little-endian bytes. */
  function FieldValue(c: Code, bs: seq<Byte>): (v: int)
    requires |bs| == Width(c)
    ensures InRange(c, v)
  {
    ModulusPow(c);
    if IsSigned(c) then ToSigned(LeUnsigned(bs), Modulus(c)) else LeUnsigned(bs)
  }

  /** The field values read from `buf` when the fields are laid out from `start`. */
  function ValuesFrom(codes: seq<Code>, buf: seq<Byte>, start: nat): (vs: seq<int>)
    requires EndFrom(codes, start) <= |buf|
    ensures |vs| == |codes|
  {
    if |codes| == 0 then []
    else
      var o := AlignUp(start, Width(codes[0]));
      [FieldValue(codes[0], buf[o..o + Width(codes[0])])] + ValuesFrom(codes[1..], buf, o + Width(codes[0]))
  }

  /** `struct.unpack(fmt, buf)`: one value per field, or `struct.error` when the
      format has an unsupported character or `buf` is not exactly `calcsize` long. */
  function Unpack(fmt: string, buf: seq<Byte>): (r: Result<seq<int>, StructError>)
    ensures r.Ok? <==> ParseFormat(fmt).Ok? && |buf| == CalcSize(ParseFormat(fmt).value)
    ensures r.Ok? ==> |r.value| == |fmt|
  {
    match ParseFormat(fmt)
    case Err(p) => Err(BadChar(p))
    case Ok(codes) =>
      if |buf| != CalcSize(codes) then Err(SizeMismatch(CalcSize(codes), |buf|))
      else Ok(ValuesFrom(codes, buf, 0))
  }

  /** Every value read is within the range of its field's type. */
  lemma {:induction false} ValuesFromInRange(codes: seq<Code>, buf: seq<Byte>, start: nat)
    requires EndFrom(codes, start) <= |buf|
    ensures forall i :: 0 <= i < |codes| ==> InRange(codes[i], ValuesFrom(codes, buf, start)[i])
  {
    if |codes| > 0 {
      var o := AlignUp(start, Width(codes[0]));
      ValuesFromInRange(codes[1..], buf, o + Width(codes[0]));
    }
  }

  /** `struct.unpack` yields values within the range of each field's type. */
  lemma UnpackInRange(fmt: string, buf: seq<Byte>)
    requires Unpack(fmt, buf).Ok?
    ensures forall i :: 0 <= i < |fmt| ==> InRange(ParseFormat(fmt).value[i], Unpack(fmt, buf).value[i])
  {
    ValuesFromInRange(ParseFormat(fmt).value, buf, 0);
  }

  /** The bytes `struct.pack` writes for one field. */
  function FieldBytes(c: Code, v: int): (bs: seq<Byte>)
    requires InRange(c, v)
    ensures |bs| == Width(c)
  {
    ModulusPow(c);
    LeBytes(if v < 0 then v + Modulus(c) else v, Width(c))
  }

  lemma FieldValueOfBytes(c: Code, v: int)
    requires InRange(c, v)
    ensures FieldValue(c, FieldBytes(c, v)) == v
  {
    var w := Width(c);
    var u := if v < 0 then v + Modulus(c) else v;
    ModulusPow(c);
    LeUnsignedOfLeBytes(u, w);
  }

  /** `struct.pack` in native mode: each field aligned, padding bytes zero. */
  function PackFrom(codes: seq<Code>, vals: seq<int>, start: nat): (bs: seq<Byte>)
    requires |vals| == |codes|
    requires forall i :: 0 <= i < |codes| ==> InRange(codes[i], vals[i])
    ensures |bs| == EndFrom(codes, start) - start
  {
    if |codes| == 0 then []
    else
      var o := AlignUp(start, Width(codes[0]));
      Zeros(o - start) + FieldBytes(codes[0], vals[0]) + PackFrom(codes[1..], vals[1..], o + Width(codes[0]))
  }

  /** A 16-bit field at an even offset is packed without padding. */
  lemma PackFromWord(codes: seq<Code>, vals: seq<int>, start: nat)
    requires 0 < |vals| == |codes| && Width(codes[0]) == 2 && start % 2 == 0
    requires forall i :: 0 <= i < |codes| ==> InRange(codes[i], vals[i])
    ensures PackFrom(codes, vals, start) == FieldBytes(codes[0], vals[0]) + PackFrom(codes[1..], vals[1..], start + 2)
  {
    var f, rest := FieldBytes(codes[0], vals[0]), PackFrom(codes[1..], vals[1..], start + 2);
    assert AlignUp(start, Width(codes[0])) == start;
    assert PackFrom(codes, vals, start) == Zeros(0) + f + rest;
    assert Zeros(0) + f == f;
  }

  /** 16-bit fields only: each code packs as a little-endian word. */
  predicate AllWords(codes: seq<Code>, vals: seq<int>)
  {
    |vals| == |codes| && forall i :: 0 <= i < |codes| ==> Width(codes[i]) == 2 && InRange(codes[i], vals[i])
  }

  /** The fields' bytes back to back, with no padding between them. */
  function WordsBytes(codes: seq<Code>, vals: seq<int>): (bs: seq<Byte>)
    requires AllWords(codes, vals)
    ensures |bs| == 2 * |codes|
  {
    if |codes| == 0 then [] else FieldBytes(codes[0], vals[0]) + WordsBytes(codes[1..], vals[1..])
  }

  /** From an even offset, 16-bit fields are packed back to back. */
  lemma {:induction false} PackFromWords(codes: seq<Code>, vals: seq<int>, start: nat)
    requires AllWords(codes, vals) && start % 2 == 0
    ensures PackFrom(codes, vals, start) == WordsBytes(codes, vals)
  {
    if |codes| > 0 {
      PackFromWord(codes, vals, start);
      PackFromWords(codes[1..], vals[1..], start + 2);
    }
  }

  function Pack(codes: seq<Code>, vals: seq<int>): (bs: seq<Byte>)
    requires |vals| == |codes|
    requires forall i :: 0 <= i < |codes| ==> InRange(codes[i], vals[i])
    ensures |bs| == CalcSize(codes)
  {
    PackFrom(codes, vals, 0)
  }

  lemma {:induction false} ValuesFromPackFrom(codes: seq<Code>, vals: seq<int>, buf: seq<Byte>, start: nat)
    requires |vals| == |codes|
    requires forall i :: 0 <= i < |codes| ==> InRange(codes[i], vals[i])
    requires EndFrom(codes, start) <= |buf|
    requires buf[start..EndFrom(codes, start)] == PackFrom(codes, vals, start)
    ensures ValuesFrom(codes, buf, start) == vals
  {
    if |codes| > 0 {
      var o := PackedHead(codes, vals, buf, start);
      var next := o + Width(codes[0]);
      ValuesFromPackFrom(codes[1..], vals[1..], buf, next);
      ValuesFromUnfold(codes, buf, start, next, vals[0], vals[1..]);
      assert [vals[0]] + vals[1..] == vals;
    }
  }

  /** The first field of a packing sits at its aligned offset `o`, and the
      packing of the remaining fields follows it. */
  lemma PackedHead(codes: seq<Code>, vals: seq<int>, buf: seq<Byte>, start: nat) returns (o: nat)
    requires 0 < |vals| == |codes|
    requires forall i :: 0 <= i < |codes| ==> InRange(codes[i], vals[i])
    requires EndFrom(codes, start) <= |buf|
    requires buf[start..EndFrom(codes, start)] == PackFrom(codes, vals, start)
    ensures o == AlignUp(start, Width(codes[0]))
    ensures FieldValue(codes[0], buf[o..o + Width(codes[0])]) == vals[0]
    ensures EndFrom(codes[1..], o + Width(codes[0])) == EndFrom(codes, start)
    ensures buf[o + Width(codes[0])..EndFrom(codes, start)] == PackFrom(codes[1..], vals[1..], o + Width(codes[0]))
  {
    var w := Width(codes[0]);
    o := AlignUp(start, w);
    var end := EndFrom(codes, start);
    var field := FieldBytes(codes[0], vals[0]);
    var rest := PackFrom(codes[1..], vals[1..], o + w);
    PackFromUnfold(codes, vals, start);
    SliceOfConcat(buf, start, end, o, o + w, Zeros(o - start), field, rest);
    FieldValueOfBytes(codes[0], vals[0]);
  }

  /** The packing from `start`: padding to the first field's alignment,
      the field, and the packing of the rest after it. */
  lemma PackFromUnfold(codes: seq<Code>, vals: seq<int>, start: nat)
    requires 0 < |vals| == |codes|
    requires forall i :: 0 <= i < |codes| ==> InRange(codes[i], vals[i])
    ensures EndFrom(codes[1..], AlignUp(start, Width(codes[0])) + Width(codes[0])) == EndFrom(codes, start)
    ensures PackFrom(codes, vals, start)
      == Zeros(AlignUp(start, Width(codes[0])) - start) + FieldBytes(codes[0], vals[0])
        + PackFrom(codes[1..], vals[1..], AlignUp(start, Width(codes[0])) + Width(codes[0]))
  {
  }

  /** Where a buffer holds `pad + field + rest` from `start`, the field and
      the rest sit at offsets `a` and `b`. */
  lemma SliceOfConcat(buf: seq<Byte>, start: nat, end: nat, a: nat, b: nat, pad: seq<Byte>, field: seq<Byte>, rest: seq<Byte>)
    requires start <= end <= |buf|
    requires buf[start..end] == pad + field + rest
    requires a == start + |pad| && b == a + |field|
    ensures b <= end
    ensures buf[a..b] == field
    ensures buf[b..end] == rest
  {
    forall k | 0 <= k < |field|
      ensures buf[a..b][k] == field[k]
    {
      assert buf[a + k] == buf[start..end][|pad| + k];
    }
    forall k | 0 <= k < |rest|
      ensures buf[b..end][k] == rest[k]
    {
      assert buf[b + k] == buf[start..end][|pad| + |field| + k];
    }
  }

  lemma ValuesFromUnfold(codes: seq<Code>, buf: seq<Byte>, start: nat, next: nat, head: int, tail: seq<int>)
    requires |codes| > 0 && EndFrom(codes, start) <= |buf|
    requires next == AlignUp(start, Width(codes[0])) + Width(codes[0])
    requires FieldValue(codes[0], buf[next - Width(codes[0])..next]) == head
    requires ValuesFrom(codes[1..], buf, next) == tail
    ensures ValuesFrom(codes, buf, start) == [head] + tail
  {
  }

  /** Round trip: unpacking what was packed with the same format gives back the values. */
  lemma UnpackPack(codes: seq<Code>, vals: seq<int>)
    requires |vals| == |codes|
    requires forall i :: 0 <= i < |codes| ==> InRange(codes[i], vals[i])
    ensures Unpack(FormatOf(codes), Pack(codes, vals)) == Ok(vals)
  {
    ParseFormatOf(codes);
    var buf := Pack(codes, vals);
    assert buf[0..CalcSize(codes)] == buf;
    ValuesFromPackFrom(codes, vals, buf, 0);
  }
}

=== FILE: test_vectors.dfy ===
/** The frames exchanged with the mocked SimpleAccel mote of
    tests/test_streams.py, and what the stream engine makes of them. */
module TestVectors {
  import opened Results
  import opened Bytes
  import opened StructCodec
  import opened FrameCodec
  import opened DataFrames
  import opened Registry
  import opened Receive
  import opened StreamRun
  import opened RunProperties

  /** The presentation frame: 120-byte frames of 8-byte `"hhhh"` chunks, and
      the keys `accel_x`, `accel_y`, `accel_z` and `batt`. */
  const AccelHeader: seq<Byte> :=
    [120, 8] + [104, 104, 104, 104, 0, 0, 0, 0, 0, 0]
    + ([97, 99, 99, 101, 108, 95, 120, 0, 0, 0] + [97, 99, 99, 101, 108, 95, 121, 0, 0, 0]
       + [97, 99, 99, 101, 108, 95, 122, 0, 0, 0] + [98, 97, 116, 116, 0, 0, 0, 0, 0, 0])
    + seq(60, _ => 0)

  const AccelInfo: FrameInfo := FrameInfo(120, 8, "hhhh", ["accel_x", "accel_y", "accel_z", "batt"])

  const AccelCodes: seq<Code> := [I16, I16, I16, I16]

  /** One 8-byte chunk as the mock mote sends it. */
  const AccelChunk: seq<Byte> := [0xd0, 0x07, 0xd1, 0x07, 0xd2, 0x07, 0xd3, 0x07]

  const AccelValues: seq<int> := [2000, 2001, 2002, 2003]

  const AccelRecord: Record := map["accel_x" := 2000, "accel_y" := 2001, "accel_z" := 2002, "batt" := 2003]

  /** A full data frame: fifteen chunks received back to back. */
  function AccelFrame(): (bs: seq<Byte>)
  {
    Concat(seq(15, _ => AccelChunk))
  }

  /** The handshake of the test yields the expected descriptor. */
  lemma AccelHeaderDecodes()
    ensures Representable(AccelInfo) && EncodeHeader(AccelInfo) == AccelHeader
    ensures DecodeHeader(AccelHeader) == Ok(AccelInfo)
  {
    AccelHeaderEncodes();
    DecodeEncodeHeader(AccelInfo);
  }

  /** The presentation frame of the test is the encoding of its descriptor. */
  lemma AccelHeaderEncodes()
    ensures Representable(AccelInfo) && EncodeHeader(AccelInfo) == AccelHeader
  {
    assert Representable(AccelInfo);
    AccelKeyBlock();
    AccelTextFields();
    assert Zeros(KeyLen * (KeySlots - |AccelInfo.keys|)) == seq(60, _ => 0);
  }

  lemma AccelKeyBlock()
    ensures forall i :: 0 <= i < |AccelInfo.keys| ==> IsKeyText(AccelInfo.keys[i])
    ensures KeyBlock(AccelInfo.keys) == PadText("accel_x", KeyLen) + PadText("accel_y", KeyLen)
      + PadText("accel_z", KeyLen) + PadText("batt", KeyLen)
  {
    var keys := AccelInfo.keys;
    assert forall i :: 0 <= i < |keys| ==> IsKeyText(keys[i]);
    assert keys[1..] == ["accel_y", "accel_z", "batt"];
    assert keys[1..][1..] == ["accel_z", "batt"];
    assert keys[1..][1..][1..] == ["batt"];
  }

  lemma AccelTextFields()
    ensures PadText("hhhh", FormatLen) == [104, 104, 104, 104, 0, 0, 0, 0, 0, 0]
    ensures PadText("accel_x", KeyLen) == [97, 99, 99, 101, 108, 95, 120, 0, 0, 0]
    ensures PadText("accel_y", KeyLen) == [97, 99, 99, 101, 108, 95, 121, 0, 0, 0]
    ensures PadText("accel_z", KeyLen) == [97, 99, 99, 101, 108, 95, 122, 0, 0, 0]
    ensures PadText("batt", KeyLen) == [98, 97, 116, 116, 0, 0, 0, 0, 0, 0]
  {
  }

  /** The descriptor announced by the test mote is well formed. */
  lemma AccelInfoWellFormed()
    ensures ParseFormat(AccelInfo.format) == Ok(AccelCodes)
    ensures WellFormed(AccelInfo)
  {
    FormatHhhh();
    EndFromWords(AccelCodes, 0, 4);
  }

  /** Each chunk is packed from the values 2000 to 2003. */
  lemma AccelChunkPacked()
    ensures |AccelValues| == |AccelCodes|
    ensures forall i :: 0 <= i < |AccelCodes| ==> InRange(AccelCodes[i], AccelValues[i])
    ensures Pack(AccelCodes, AccelValues) == AccelChunk
  {
    assert AllWords(AccelCodes, AccelValues);
    PackFromWords(AccelCodes, AccelValues, 0);
    AccelWordsBytes();
  }

  lemma AccelWordsBytes()
    requires AllWords(AccelCodes, AccelValues)
    ensures WordsBytes(AccelCodes, AccelValues) == AccelChunk
  {
    assert FieldBytes(I16, 2000) == [0xd0, 0x07];
    assert FieldBytes(I16, 2001) == [0xd1, 0x07];
    assert FieldBytes(I16, 2002) == [0xd2, 0x07];
    assert FieldBytes(I16, 2003) == [0xd3, 0x07];
  }

  /** `_to_dict` of the chunk values is the dictionary the test expects. */
  lemma AccelChunkRecord()
    ensures ToDict(AccelInfo.keys, AccelValues) == Ok(AccelRecord)
  {
    var keys := AccelInfo.keys;
    var v := AccelValues;
    assert keys[..4][..3] == keys[..3] && keys[..3][..2] == keys[..2] && keys[..2][..1] == keys[..1];
    assert Assign(keys[..1], v) == map["accel_x" := 2000];
    assert Assign(keys[..2], v) == map["accel_x" := 2000, "accel_y" := 2001];
    assert Assign(keys[..3], v) == map["accel_x" := 2000, "accel_y" := 2001, "accel_z" := 2002];
    assert keys[..4] == keys;
  }

  /** The test's data frame is the frame a mote sends for fifteen samples
      of the values 2000 to 2003. */
  lemma AccelFrameEncoded()
    ensures Fits(AccelCodes, seq(15, _ => AccelValues))
    ensures EncodeFrame(AccelCodes, seq(15, _ => AccelValues)) == AccelFrame()
  {
    AccelChunkPacked();
    var samples := seq(15, _ => AccelValues);
    assert Fits(AccelCodes, samples);
    assert PackAll(AccelCodes, samples) == seq(15, _ => AccelChunk);
  }

  /** The data frame of the test is delivered as fifteen copies of the expected dictionary. */
  lemma AccelFrameDecodes()
    ensures |AccelFrame()| == AccelInfo.frameSize
    ensures DecodeFrame(AccelInfo, AccelFrame()) == FrameResult(seq(15, _ => AccelRecord), None)
  {
    AccelInfoWellFormed();
    AccelChunkPacked();
    AccelFrameEncoded();
    AccelChunkRecord();
    RepeatedSampleFrame(AccelInfo, AccelCodes, AccelValues, 15);
  }

  /** A slave stream that receives the test's presentation frame, one data
      frame and then a `stop` call hands fifteen copies of the expected
      dictionary to `process`, then closes and leaves `_open_conn`. */
  lemma AccelStreamRun(w: World, id: nat)
    requires Valid(w) && id < |w.streams| && !w.streams[id].started
    ensures var r := RunSlave(w, id, [Recv(AccelHeader), Recv(AccelFrame()), StopCall]);
      && r.records == seq(15, _ => AccelRecord)
      && r.outcome == Closed
      && !IsOpen(r.w, id) && id !in r.w.openConn
  {
    AccelHeaderDecodes();
    AccelInfoWellFormed();
    AccelFrameDecodes();
    OneFrameThenStop(w, id, AccelInfo, AccelFrame());
  }

  /** The mock socket of the test answers each `recv` for a data frame with
      one 8-byte chunk: fifteen of them make the frame, and a `stop` call
      after it closes the stream once the fifteen records are delivered. */
  lemma AccelMockStream(w: World, id: nat)
    requires Valid(w) && id < |w.streams| && !w.streams[id].started
    ensures var r := RunSlave(w, id, [Recv(AccelHeader)] + (FrameEvents(AccelChunks()) + [StopCall]));
      && r.records == seq(15, _ => AccelRecord)
      && r.outcome == Closed
      && !IsOpen(r.w, id) && id !in r.w.openConn
  {
    AccelHeaderEncodes();
    AccelChunksArrive();
    AccelChunksDecode();
    BlocksThenStop(w, id, AccelInfo, AccelChunks());
  }

  /** The fifteen answers of the mock socket. */
  function AccelChunks(): (cs: seq<seq<Byte>>)
    ensures |cs| == 15 && Concat(cs) == AccelFrame()
  {
    seq(15, _ => AccelChunk)
  }

  /** The frame is complete only after the fifteenth chunk. */
  lemma AccelChunksArrive()
    ensures forall j :: 0 <= j < |AccelChunks()| ==> |Concat(AccelChunks()[..j])| < AccelInfo.frameSize
    ensures |Concat(AccelChunks())| == AccelInfo.frameSize
  {
    var chunks := AccelChunks();
    forall j | 0 <= j < 15
      ensures |Concat(chunks[..j])| < AccelInfo.frameSize
    {
      ConcatLength(chunks[..j], 8);
    }
    ConcatLength(chunks, 8);
  }

  /** The chunks together are the test's data frame. */
  lemma AccelChunksDecode()
    ensures |Concat(AccelChunks())| == AccelInfo.frameSize
      && DecodeFrame(AccelInfo, Concat(AccelChunks())) == FrameResult(seq(15, _ => AccelRecord), None)
  {
    var frame := Concat(AccelChunks());
    assert frame == AccelFrame();
    AccelFrameDecodes();
  }
}
